=== FILE: README.md ===
# dw-jdbc query transport, modelled in Dafny

This project models the part of the dw-jdbc driver that turns a query into an
HTTP request to a data.world query server and reads the reply:
`HttpQueryApi` and the null-coalescing helpers in `Optionals` that it relies on.

Java's nullable references are modelled as `Option`, and exceptions as a
`Result` carrying a `QueryError`. The server's reply is an input. The network,
the threads and the response parsers are not modelled.

The modules follow the code:

- `Optionals` (`optionals.dfy`): `or`, `mapIfPresent`, `nullOrEquals`,
  `nullOrMatches` (with the LIKE matcher as a parameter) and `nullOrContains`.
  The same file holds `Results`, the `Ok`/`Err` outcome.
- `JavaStrings` (`java_strings.dfy`): the `java.lang` string behaviour the
  code depends on.
  - `String.trim` strips every char at or below U+0020.
  - `split` drops trailing empty strings.
  - `Integer.toString`, and `%d` under a locale whose zero digit is `'0'`.
  - `%s` renders null as `null`.
  - `Collectors.joining`.
- `Utf8` (`utf8.dfy`): `getBytes(UTF_8)`, with a decoder as its partner.
- `FormUrlEncoding` (`form_url_encoding.dfy`): `URLEncoder.encode(s, "UTF-8")`,
  the application/x-www-form-urlencoded serializer of the WHATWG URL Standard
  (section 5.2).
  - ASCII alphanumerics and `.-*_` are kept as they are.
  - A space becomes `+`.
  - Every other UTF-8 byte becomes upper-case `%XX`.
  - A decoder is its partner.
- `QueryErrors` (`query_errors.dfy`): one constructor per way a call fails.
- `QueryRequest` (`query_request.dfy`): everything computed before the request
  is sent.
  - `executeQuery`'s parameter-name check and its insertion-ordered field map.
  - The form body.
  - The timeouts, including their conversion to `int` milliseconds.
  - The `Accept` value and the request headers.
- `QueryResponse` (`query_response.dfy`): everything done with the reply.
  - `trimHeader`.
  - The status policy and its messages.
  - The gzip decision.
  - `parseResponse`'s first-match choice of parser.
- `HttpQueryApi` (`http_query_api.dfy`): `executeQuery` end to end over the
  two standard parsers. It also shows that the `Accept` header advertises
  exactly the content types that dispatch accepts.

## Model

| member | source | states |
|---|---|---|
| Optionals.Or | src/main/java/world/data/jdbc/internal/util/Optionals.java:30-32 | a present first value is returned; otherwise the second is; the result is present iff one of the two is |
| Optionals.OrElse | src/main/java/world/data/jdbc/internal/transport/HttpQueryApi.java:119 | `or` with a non-null default yields the value when present and the default otherwise |
| Optionals.OrAssociative | src/main/java/world/data/jdbc/internal/util/Optionals.java:30-32 | the first non-null of three values does not depend on how `or` is nested |
| Optionals.OrLeftAbsorbing | src/main/java/world/data/jdbc/internal/util/Optionals.java:30-32 | `or(Some(x), b)` is `Some(x)`, however many further `or`s follow |
| Optionals.OrNeutral | src/main/java/world/data/jdbc/internal/util/Optionals.java:30-32 | null is neutral on both sides of `or` |
| Optionals.MapIfPresent | src/main/java/world/data/jdbc/internal/util/Optionals.java:34-36 | null maps to null; a present value maps to whatever `f` returns for it |
| Optionals.MapIfPresentCompose | src/main/java/world/data/jdbc/internal/util/Optionals.java:34-36 | mapping twice is the same as mapping once with the composed function |
| Optionals.NullOrEqualsMeaning | src/main/java/world/data/jdbc/internal/util/Optionals.java:38-40 | true iff `a` is null or `a` equals `b`; a present `a` never equals a null `b` |
| Optionals.NullOrMatchesNullPattern | src/main/java/world/data/jdbc/internal/util/Optionals.java:42-44 | a null pattern matches every string, whatever the matcher |
| Optionals.NullOrMatchesPresent | src/main/java/world/data/jdbc/internal/util/Optionals.java:42-44 | a present pattern defers exactly to the LIKE matcher |
| Optionals.NullOrContainsMeaning | src/main/java/world/data/jdbc/internal/util/Optionals.java:46-48 | a null array contains everything; otherwise the result is membership, with null elements matching a null value |
| JavaStrings.Trim | src/main/java/world/data/jdbc/internal/transport/HttpQueryApi.java:207 | a non-empty trimmed result neither starts nor ends with a char at or below U+0020 |
| JavaStrings.TrimSubset | src/main/java/world/data/jdbc/internal/transport/HttpQueryApi.java:207 | trim adds no char; it gives the empty string exactly when every char is at or below U+0020 |
| JavaStrings.TrimFrames | src/main/java/world/data/jdbc/internal/transport/HttpQueryApi.java:207 | the input is the trimmed result framed by two runs of trimmable chars |
| JavaStrings.TrimIdempotent | src/main/java/world/data/jdbc/internal/transport/HttpQueryApi.java:207 | trimming twice is trimming once |
| JavaStrings.JavaSplitNonEmpty | src/main/java/world/data/jdbc/internal/transport/HttpQueryApi.java:197 | dropping trailing empty pieces loses no non-empty piece |
| JavaStrings.SplitJoin | src/main/java/world/data/jdbc/internal/transport/HttpQueryApi.java:105-111 | splitting on a separator no piece contains recovers the joined pieces |
| JavaStrings.SplitPieces | src/main/java/world/data/jdbc/internal/transport/HttpQueryApi.java:197 | a split has one more piece than the string has separators; no piece holds the separator; joining the pieces gives the string back |
| JavaStrings.IntToString | src/main/java/world/data/jdbc/internal/transport/HttpQueryApi.java:94 | the rendering is non-empty: the digits, preceded by `-` for a negative value |
| JavaStrings.IntToStringRoundTrip | src/main/java/world/data/jdbc/internal/transport/HttpQueryApi.java:94 | the decimal rendering reads back as the same integer |
| JavaStrings.IntToStringInjective | src/main/java/world/data/jdbc/internal/transport/HttpQueryApi.java:94 | distinct row caps give distinct `maxRowsReturned` values |
| JavaStrings.ValueOf | src/main/java/world/data/jdbc/internal/transport/HttpQueryApi.java:152 | `%s` renders a present string as itself and null as `null` |
| Utf8.DecodeEncode | src/main/java/world/data/jdbc/internal/transport/HttpQueryApi.java:112 | the UTF-8 bytes decode back to the string |
| Utf8.EncodeInjective | src/main/java/world/data/jdbc/internal/transport/HttpQueryApi.java:112 | distinct strings have distinct UTF-8 bytes |
| Utf8.EncodeAscii | src/main/java/world/data/jdbc/internal/transport/HttpQueryApi.java:112 | ASCII text encodes to one byte per char, equal to the char's code |
| FormUrlEncoding.Encode | src/main/java/world/data/jdbc/internal/transport/HttpQueryApi.java:210-216 | the encoding is made only of unreserved chars, `+` and `%XX`, so it holds no `&` and no `=` |
| FormUrlEncoding.EncodeIsByteSerialization | src/main/java/world/data/jdbc/internal/transport/HttpQueryApi.java:212 | encoding a string is serializing its UTF-8 bytes one byte at a time |
| FormUrlEncoding.DecodeEncode | src/main/java/world/data/jdbc/internal/transport/HttpQueryApi.java:210-216 | decoding recovers every string from its encoding |
| FormUrlEncoding.EncodeInjective | src/main/java/world/data/jdbc/internal/transport/HttpQueryApi.java:210-216 | distinct strings have distinct encodings |
| FormUrlEncoding.EncodedIsAscii | src/main/java/world/data/jdbc/internal/transport/HttpQueryApi.java:210-216 | every encoded string is ASCII |
| FormUrlEncoding.PercentByte | src/main/java/world/data/jdbc/internal/transport/HttpQueryApi.java:212 | `%` followed by two hex digits whose value is the byte |
| QueryRequest.Lookup | src/main/java/world/data/jdbc/internal/transport/HttpQueryApi.java:83 | a key has a value exactly when it is one of the map's keys |
| QueryRequest.Put | src/main/java/world/data/jdbc/internal/transport/HttpQueryApi.java:83-95 | a new key is appended last; a present key keeps its position, so the key order is unchanged |
| QueryRequest.PutLookup | src/main/java/world/data/jdbc/internal/transport/HttpQueryApi.java:83-95 | after `put` the key maps to the new value, and every other key keeps its value |
| QueryRequest.AddParametersValidation | src/main/java/world/data/jdbc/internal/transport/HttpQueryApi.java:85-92 | the loop succeeds iff every name starts with `$` and is longer than one char; otherwise it fails naming the first bad name |
| QueryRequest.AddParametersAppends | src/main/java/world/data/jdbc/internal/transport/HttpQueryApi.java:85-92 | with distinct, valid names not already keys, the loop appends one field per non-null value, in order |
| QueryRequest.BoundFieldsFromParameters | src/main/java/world/data/jdbc/internal/transport/HttpQueryApi.java:89-91 | every bound field is some parameter's name with its non-null value |
| QueryRequest.BoundFieldsKeys | src/main/java/world/data/jdbc/internal/transport/HttpQueryApi.java:89-91 | a name is bound iff some parameter has that name and a non-null value |
| QueryRequest.ReservedKeysAreNotParameterNames | src/main/java/world/data/jdbc/internal/transport/HttpQueryApi.java:84-94 | no accepted parameter name can be `query` or `maxRowsReturned` |
| QueryRequest.RequestFieldsLayout | src/main/java/world/data/jdbc/internal/transport/HttpQueryApi.java:83-95 | the fields are `query`, then the non-null parameters in order, then `maxRowsReturned` exactly when a cap is given, and nothing else |
| QueryRequest.RequestFieldsValidation | src/main/java/world/data/jdbc/internal/transport/HttpQueryApi.java:83-98 | the fields are built iff every name is valid; otherwise the error names the first bad one |
| QueryRequest.EncodeField | src/main/java/world/data/jdbc/internal/transport/HttpQueryApi.java:110 | an encoded field is non-empty and holds no `&` |
| QueryRequest.BuildBody | src/main/java/world/data/jdbc/internal/transport/HttpQueryApi.java:105-111 | the loop that puts `&` before every field but the first builds the encoded fields joined by `&` |
| QueryRequest.FormBodyStep | src/main/java/world/data/jdbc/internal/transport/HttpQueryApi.java:107-110 | the buffer is non-empty exactly after the first field; each further field adds `&` and the field |
| QueryRequest.BodySegments | src/main/java/world/data/jdbc/internal/transport/HttpQueryApi.java:105-111 | splitting the body on `&` gives one segment per field, in field order |
| QueryRequest.BodyRoundTrip | src/main/java/world/data/jdbc/internal/transport/HttpQueryApi.java:105-111 | parsing the body gives back exactly the fields, in order |
| QueryRequest.BodySeparators | src/main/java/world/data/jdbc/internal/transport/HttpQueryApi.java:105-111 | n fields give exactly n - 1 `&`, and none at either end |
| QueryRequest.BodyLength | src/main/java/world/data/jdbc/internal/transport/HttpQueryApi.java:112 | the body is ASCII, so its UTF-8 byte count, which is the fixed streaming length, is its length |
| QueryRequest.ResolveTimeouts | src/main/java/world/data/jdbc/internal/transport/HttpQueryApi.java:119-120 | read is at most 60 and connect at most 5 and at most read; absent gives (60, 5); a request of at most 60 is kept and one of at least 60 gives exactly 60 |
| QueryRequest.TimeoutsOnlyShrink | src/main/java/world/data/jdbc/internal/transport/HttpQueryApi.java:119-120 | in seconds, a caller's timeout only lowers the defaults, monotonically |
| QueryRequest.TimeoutExamples | src/main/java/world/data/jdbc/internal/transport/HttpQueryApi.java:119-120 | absent gives (60, 5), 300 gives (60, 5) and 3 gives (3, 3) |
| QueryRequest.ToInt32 | src/main/java/world/data/jdbc/internal/transport/HttpQueryApi.java:122-123 | the `(int)` cast keeps values in range and otherwise agrees with the input modulo 2^32 |
| QueryRequest.TimeoutsAgreeAsWritten | src/main/java/world/data/jdbc/internal/transport/HttpQueryApi.java:122-123 | for every request of at least -2147483 seconds, the `(int)` conversion as written and the exact one accept the same requests with the same millisecond counts |
| QueryRequest.WrappedTimeoutExceedsCaps | src/main/java/world/data/jdbc/internal/transport/HttpQueryApi.java:122-123 | as written, -2147484 seconds is accepted and both millisecond counts wrap to 2147483296, above the 60 s and 5 s caps |
| QueryRequest.TimeoutCaps | src/main/java/world/data/jdbc/internal/transport/HttpQueryApi.java:119-123 | with the exact conversion, every negative timeout is refused and an absent or non-negative one accepted; accepted millis are numerically at most 5000 to connect and 60000 to read; a request of 0 s is accepted with 0 ms, which means no timeout |
| QueryRequest.MinimumTimeoutWrapsToZero | src/main/java/world/data/jdbc/internal/transport/HttpQueryApi.java:122-123 | as written, `Integer.MIN_VALUE` seconds wraps to 0 milliseconds and is accepted |
| QueryRequest.RequestHeadersValues | src/main/java/world/data/jdbc/internal/transport/HttpQueryApi.java:124-127 | the form content type, the `Accept` value, `gzip` and the user agent, under their header names |
| QueryRequest.RequestHeadersAuthorization | src/main/java/world/data/jdbc/internal/transport/HttpQueryApi.java:128-130 | `Authorization` is `Bearer <token>` exactly when a token is set |
| QueryRequest.PrepareRequest | src/main/java/world/data/jdbc/internal/transport/HttpQueryApi.java:101-135 | prepared iff every name is valid and the timeouts are accepted; a bad name gives InvalidArgument, a refused timeout a request failure naming the endpoint; the body is the form body of the laid-out fields and the length is its length; the millis are the exact conversion within the caps; the headers are exactly the ones `RequestHeadersValues` and `RequestHeadersAuthorization` describe, with `Accept` the joined registry |
| QueryRequest.PreparedBodyCarriesFields | src/main/java/world/data/jdbc/internal/transport/HttpQueryApi.java:83-112 | the body of a prepared request parses back to exactly the laid-out fields |
| QueryResponse.BeforeParameters | src/main/java/world/data/jdbc/internal/transport/HttpQueryApi.java:207 | the longest prefix without `;`, ending at the first `;` or at the end |
| QueryResponse.BaseValue | src/main/java/world/data/jdbc/internal/transport/HttpQueryApi.java:207 | the base value holds no `;` and has no whitespace at either end |
| QueryResponse.TrimHeader | src/main/java/world/data/jdbc/internal/transport/HttpQueryApi.java:206-208 | null stays null and a value stays a value; the result holds no `;` |
| QueryResponse.BaseValueFrames | src/main/java/world/data/jdbc/internal/transport/HttpQueryApi.java:207 | the header is its base value framed by whitespace, followed by nothing or by the first `;` |
| QueryResponse.BaseValueIgnoresParameters | src/main/java/world/data/jdbc/internal/transport/HttpQueryApi.java:207 | everything from the first `;` on is irrelevant |
| QueryResponse.BaseValueOfPlain | src/main/java/world/data/jdbc/internal/transport/HttpQueryApi.java:207 | a value without `;` or surrounding whitespace is left as it is |
| QueryResponse.BaseValueOfParameterised | src/main/java/world/data/jdbc/internal/transport/HttpQueryApi.java:206-208 | `base;params` normalises to `base` |
| QueryResponse.TrimHeaderIdempotent | src/main/java/world/data/jdbc/internal/transport/HttpQueryApi.java:206-208 | normalising twice is normalising once |
| QueryResponse.TrimHeaderAgreesWithoutLineTerminators | src/main/java/world/data/jdbc/internal/transport/HttpQueryApi.java:206-208 | without line terminators, the code as written and the base value agree |
| QueryResponse.TrimHeaderAsWrittenKeepsSemicolon | src/main/java/world/data/jdbc/internal/transport/HttpQueryApi.java:207 | as written, `a;<line terminator>b;` normalises to `a<line terminator>b;`, which still holds a `;` |
| QueryResponse.TrimHeaderAsWrittenDiffers | src/main/java/world/data/jdbc/internal/transport/HttpQueryApi.java:207 | on such a header the code as written and the base value differ |
| QueryResponse.TrimHeaderAsWrittenNotIdempotent | src/main/java/world/data/jdbc/internal/transport/HttpQueryApi.java:207 | as written, normalising such a header twice differs from normalising once |
| QueryResponse.ShouldInflateGzip | src/main/java/world/data/jdbc/internal/transport/HttpQueryApi.java:170 | `gzip`, with or without parameters, is inflated |
| QueryResponse.ShouldInflateAgreesWithoutLineTerminators | src/main/java/world/data/jdbc/internal/transport/HttpQueryApi.java:170 | on an encoding without line terminators, the body is inflated iff `trimHeader` as written yields `gzip` |
| QueryResponse.ShouldInflateNull | src/main/java/world/data/jdbc/internal/transport/HttpQueryApi.java:170 | a missing `Content-Encoding` is not inflated |
| QueryResponse.HttpFailureMessage | src/main/java/world/data/jdbc/internal/transport/HttpQueryApi.java:151-155 | the message is exactly the fixed text naming the endpoint, code and status message, followed by `; detail` when the detail is non-null and non-empty and by nothing otherwise |
| QueryResponse.HttpFailureMessageNamesStatus | src/main/java/world/data/jdbc/internal/transport/HttpQueryApi.java:152-154 | the status code reads back from its place in the message |
| QueryResponse.HttpFailureMessageMentions | src/main/java/world/data/jdbc/internal/transport/HttpQueryApi.java:151-155 | the message contains the code, the status message and any detail |
| QueryResponse.UnexpectedResponseMessage | src/main/java/world/data/jdbc/internal/transport/HttpQueryApi.java:160 | the message is exactly the fixed text naming the endpoint and the code, followed by the status message |
| QueryResponse.StatusFailure | src/main/java/world/data/jdbc/internal/transport/HttpQueryApi.java:145-161 | no failure iff the status is 200; 400 and above is an HTTP failure and any other status is an unexpected response, each carrying the code and its formatted message |
| QueryResponse.SelectParser | src/main/java/world/data/jdbc/internal/transport/HttpQueryApi.java:196-202 | the chosen entry accepts the content type and no earlier one does; none is chosen only when no entry accepts it |
| QueryResponse.UnsupportedContentTypeMessage | src/main/java/world/data/jdbc/internal/transport/HttpQueryApi.java:203 | the message is exactly the fixed text naming the endpoint, followed by the content type or `null` |
| QueryResponse.Dispatch | src/main/java/world/data/jdbc/internal/transport/HttpQueryApi.java:193-204 | the first accepting parser in registry order; fails iff none accepts, with an unsupported-content-type error carrying the content type and its message |
| QueryResponse.DispatchNullContentType | src/main/java/world/data/jdbc/internal/transport/HttpQueryApi.java:198 | an absent content type is never dispatched |
| QueryResponse.AcceptsSingleType | src/main/java/world/data/jdbc/internal/transport/HttpQueryApi.java:197-198 | an entry with one accept type accepts exactly that type's base value |
| QueryResponse.DispatchIgnoresParameters | src/main/java/world/data/jdbc/internal/transport/HttpQueryApi.java:193-204 | a content type with parameters reaches the parser that declares its base value, even behind a preferred entry declaring another type |
| QueryResponse.DeclaredTypesAllPieces | src/main/java/world/data/jdbc/internal/transport/HttpQueryApi.java:197 | for a non-empty type, the trailing empty strings that `split` drops make no difference |
| QueryResponse.HandleReply | src/main/java/world/data/jdbc/internal/transport/HttpQueryApi.java:139-175 | only 200 is consumed; 400 and above and other statuses fail by kind with their formatted messages; a 200 succeeds iff some parser accepts the normalised content type, and otherwise fails with the unsupported-content-type error for it; the chosen parser is the first that accepts, and the body is inflated iff the encoding is `gzip` |
| HttpQueryApi.StandardRegistry | src/main/java/world/data/jdbc/internal/transport/HttpQueryApi.java:55-57 | one entry per standard parser, in registry order |
| HttpQueryApi.ExecuteQuery | src/main/java/world/data/jdbc/internal/transport/HttpQueryApi.java:77-99 | a bad name fails with InvalidArgument; a refused timeout fails with the request failure naming the endpoint; success needs status 200 and sends exactly the prepared request; other statuses fail by kind with their formatted messages; a failing 200 reports the normalised content type as unsupported; the content type and the inflate flag come from the reply |
| HttpQueryApi.ExecuteQueryParserChoice | src/main/java/world/data/jdbc/internal/transport/HttpQueryApi.java:54-57 | the RDF parser is chosen exactly when it accepts the content type; a 200 reply to a valid request fails only when neither parser accepts |
| HttpQueryApi.RejectedBeforeSending | src/main/java/world/data/jdbc/internal/transport/HttpQueryApi.java:85-98 | with a bad name the outcome does not depend on the server's reply |
| HttpQueryApi.AdvertisedTypesOfJoin | src/main/java/world/data/jdbc/internal/transport/HttpQueryApi.java:114-116 | the types the joined `Accept` value advertises are those of the registry entries taken together |
| HttpQueryApi.AcceptHeaderMatchesDispatch | src/main/java/world/data/jdbc/internal/transport/HttpQueryApi.java:114-116 | a non-empty content type is dispatched iff the `Accept` header advertises it |

## Left out

- The HTTP exchange itself is not modelled (lines 121, 133-140, 164): opening
  the connection, the POST, the body write and the reads. A `Reply` of status,
  message, `Content-Type`, `Content-Encoding` and error detail stands for what
  the server sent.
- The thread pool and background draining are not modelled: `THREAD_COUNTER`,
  `cachedThreadPool`, `close` and `FileBackedInputStream`. This is concurrency,
  and `FileBackedInputStream` is not part of this model.
- Decompression by `GZIPInputStream` is not modelled. Only the decision to wrap
  the stream is modelled.
- The parsers are represented by their accept-type declarations, which are
  inputs: `RdfParser`, `SparqlResultsParser` and their `parse`. So is
  `ErrorMessageParser`, whose result is the reply's `errorDetail`.
- `CloseableRef` cleanup is not modelled: it manages resources only.
- `Node.toString` is not modelled: a parameter's value is already its wire
  string.
- `Conditions.check` is not part of this model. Its failure is the
  `InvalidArgument` error with the formatted message.
- `Like.matches` is not part of this model. It is a parameter of
  `NullOrMatches`.
- Exception re-wrapping (lines 177-190) is reduced to one error per failure
  kind. The only I/O-side failure modelled is the connection refusing a
  negative timeout: `setConnectTimeout` and `setReadTimeout` throw, and the
  call fails with "Unexpected exception while making HTTP request to server: "
  plus the endpoint. Failures of the network or of the parsers are not
  modelled.
- What a timeout of 0 means to the connection (no timeout) is not modelled.
  Only its acceptance is.
- The `requireNonNull` checks (lines 66-67, 79-80) are not modelled: null query
  and parameters are excluded by the types. So is a null map key.
- QueryRequest.PreparedBodyCarriesFields: requires distinct parameter names,
  which a Java map guarantees and a `seq` does not.
- QueryRequest.RequestFieldsLayout: requires distinct parameter names, for the
  same reason.
- QueryRequest.AddParametersAppends: requires distinct parameter names, for
  the same reason.
- QueryRequest.BoundFieldsKeys: requires distinct parameter names, for the
  same reason.
- QueryResponse.TrimHeader: normalises as the corrected `trimHeader` does (see Findings). On a header with a line terminator after its first `;`, line 207 as written keeps text, and possibly a `;`, that this drops. `QueryResponse.TrimHeaderAgreesWithoutLineTerminators` shows the two agree on every other header.
- QueryResponse.BaseValueOfParameterised: holds of the corrected `trimHeader`; as written, parameters holding a line terminator are only partly removed.
- QueryResponse.ShouldInflateGzip: holds of the corrected `trimHeader`; as written, `gzip;` followed by parameters holding a line terminator is not inflated. `QueryResponse.ShouldInflateAgreesWithoutLineTerminators` covers every encoding without one.
- QueryResponse.DispatchIgnoresParameters: holds of the corrected `trimHeader` of the server's `Content-Type`; as written, parameters holding a line terminator stay in the content type and the dispatch fails.
- QueryResponse.Dispatch: normalises each registry declaration with the corrected `trimHeader` (through `DeclaredTypes`), while line 198 applies it as written. A declaration such as `a;` + U+0085 + `b` declares `a` here but `a` + U+0085 + `b` as written. The same holds for `QueryResponse.SelectParser` and `QueryResponse.DeclaredTypesAllPieces`.
- QueryResponse.SelectParser: judges acceptance on declarations normalised by the corrected `trimHeader`; see `QueryResponse.Dispatch`.
- QueryResponse.DeclaredTypesAllPieces: characterises the declarations normalised by the corrected `trimHeader`; see `QueryResponse.Dispatch`.
- QueryResponse.BaseValueIgnoresParameters: holds of the corrected `trimHeader`. As written, line 207 keeps what follows a line terminator after the first `;`, so the parameters are not irrelevant there.
- QueryResponse.HandleReply: reads `Content-Type` and `Content-Encoding` through the corrected `trimHeader`, so for headers with a line terminator after their first `;` its content type and gzip decision differ from lines 142 and 170 as written.
- HttpQueryApi.ExecuteQuery: inherits the corrected `trimHeader` from `QueryResponse.HandleReply` and the exact millisecond conversion from `QueryRequest.PrepareRequest`. It differs from the code as written on headers with a line terminator after their first `;`, and on timeouts below -2147483 seconds.
- HttpQueryApi.ExecuteQueryParserChoice: judges acceptance on the corrected `trimHeader` of the content type, not on what line 142 as written computes.
- QueryRequest.PrepareRequest: converts timeouts to milliseconds exactly (see Findings). For a request below -2147483 seconds the code as written may accept a wrapped count. `QueryRequest.TimeoutsAgreeAsWritten` shows the two agree on every other request.
- QueryResponse.HttpFailureMessage: the status code is rendered with ASCII digits. `String.format` at lines 152 and 154 localises `%d` to the default format locale's zero digit, so the message is modelled for a default locale whose zero digit is `'0'`.
- QueryResponse.UnexpectedResponseMessage: likewise modelled for a default locale whose zero digit is `'0'`, since line 160 formats the status with `%d`.
- Java strings are UTF-16, while a Dafny `string` here is a sequence of Unicode scalar values. An unpaired surrogate in a query, a parameter value or a token cannot be represented. `getBytes(UTF_8)` inside `URLEncoder` would write it as `%3F`.
- The test files are not modelled. They exercise the JDBC façade and a live
  mock server, not this logic.

## Findings

| source | as written | input that shows it | evidently intended | confidence | as-written member | corrected member |
|---|---|---|---|---|---|---|
| src/main/java/world/data/jdbc/internal/transport/HttpQueryApi.java:207 | `replaceFirst(";.*", "")` removes from the first `;` only up to the next line terminator, because `.` does not match `\n`, `\r`, U+0085, U+2028 or U+2029 | the header `a;` + U+0085 + `b;` normalises to `a` + U+0085 + `b;`, which still holds a `;`, and a second pass gives a different value | drop everything from the first `;` on, so that the result holds no `;` and normalising is idempotent | low (HTTP header values rarely carry these chars); not executed | QueryResponse.TrimHeaderAsWrittenKeepsSemicolon | QueryResponse.TrimHeaderIdempotent |
| src/main/java/world/data/jdbc/internal/transport/HttpQueryApi.java:122-123 | `(int) TimeUnit.SECONDS.toMillis(t)` wraps modulo 2^32, so some negative timeouts become non-negative millisecond counts that the connection accepts | `timeoutSeconds` = -2147484 gives read and connect timeouts of 2147483296 ms (about 24.9 days); `Integer.MIN_VALUE` gives 0 ms, which means no timeout | every negative timeout is refused; accepted millisecond counts are numerically within 5000 to connect and 60000 to read. In both halves a request of 0 s (and, as written, `Integer.MIN_VALUE` s) gives 0 ms, which the connection takes as no timeout | low: src/test/java/world/data/jdbc/internal/statements/StatementTest.java:236-239 shows `setQueryTimeout(-300)` reading back as 0, so negative requests most likely reach line 119 as 0 and never wrap; not executed | QueryRequest.WrappedTimeoutExceedsCaps | QueryRequest.TimeoutCaps |

The rest of the model uses the corrected `TrimHeader`, which cuts at the first
`;`. `QueryResponse.TrimHeaderAgreesWithoutLineTerminators` shows that it
agrees with the code as written on every header without a line terminator.

The timeout row's as-written behaviour is also shown by
`QueryRequest.MinimumTimeoutWrapsToZero`. The request model converts timeouts
exactly. `QueryRequest.TimeoutsAgreeAsWritten` shows that this matches the
code for every request of at least -2147483 seconds. The caps are bounds on
the numbers passed to the connection, not on how long a call may wait: 0 ms,
reached from a request of 0 seconds in both halves, means no timeout.

=== FILE: form_url_encoding.dfy ===
/**
 `URLEncoder.encode(s, "UTF-8")`: the application/x-www-form-urlencoded
 byte serializer of section 5.2 of the WHATWG URL Standard. ASCII letters,
 digits and `.-*_` stay as they are, a space becomes `+`, and every other
 char is written as `%XX` for each byte of its UTF-8 encoding, with
 upper-case hex digits. `Decode` is the matching parser; together they give
 the round trip the request body relies on.
 */
module FormUrlEncoding {
  import opened Optionals
  import Utf8

  type byte = Utf8.byte

  /** The chars `URLEncoder` leaves unchanged. */
  predicate IsUnreserved(c: char) {
    || ('a' <= c <= 'z') || ('A' <= c <= 'Z') || ('0' <= c <= '9')
    || c == '.' || c == '-' || c == '*' || c == '_'
  }

  /** The chars an encoded string is made of. */
  predicate IsEncodedChar(c: char) {
    IsUnreserved(c) || c == '+' || c == '%'
  }

  predicate IsEncoded(s: string) {
    forall i :: 0 <= i < |s| ==> IsEncodedChar(s[i])
  }

  /** An upper-case hex digit, as `URLEncoder` writes it. */
  function HexDigit(d: nat): (c: char)
    requires d < 16
    ensures HexValue(c) == Some(d)
  {
    if d < 10 then (('0' as int) + d) as char else (('A' as int) + d - 10) as char
  }

  /** The value of a hex digit of either case. */
  function HexValue(c: char): Option<nat> {
    if '0' <= c <= '9' then Some((c as int) - ('0' as int))
    else if 'A' <= c <= 'F' then Some((c as int) - ('A' as int) + 10)
    else if 'a' <= c <= 'f' then Some((c as int) - ('a' as int) + 10)
    else None
  }

  /** `%XX` for one byte. */
  function PercentByte(b: byte): (s: string)
    ensures |s| == 3 && s[0] == '%' && IsEncoded(s)
    ensures HexValue(s[1]).Some? && HexValue(s[2]).Some?
    ensures HexValue(s[1]).value * 16 + HexValue(s[2]).value == b
  {
    ['%', HexDigit(b / 16), HexDigit(b % 16)]
  }

  function PercentBytes(bs: seq<byte>): (s: string)
    ensures IsEncoded(s)
  {
    if bs == [] then "" else PercentByte(bs[0]) + PercentBytes(bs[1..])
  }

  /** One char as `URLEncoder` writes it. */
  function EncodeChar(c: char): (s: string)
    ensures |s| > 0 && IsEncoded(s)
  {
    if IsUnreserved(c) then [c]
    else if c == ' ' then "+"
    else PercentBytes(Utf8.EncodeChar(c))
  }

  /** `URLEncoder.encode(s, "UTF-8")`. */
  function Encode(s: string): (r: string)
    ensures IsEncoded(r)
    ensures '&' !in r && '=' !in r
  {
    if s == [] then "" else EncodeChar(s[0]) + Encode(s[1..])
  }

  /** One byte of the UTF-8 encoding as the serializer writes it. */
  function EncodeByte(b: byte): (s: string)
    ensures |s| > 0 && IsEncoded(s)
  {
    if b == 0x20 then "+"
    else if IsUnreserved(b as char) then [b as char]
    else PercentByte(b)
  }

  function EncodeBytes(bs: seq<byte>): (s: string)
    ensures IsEncoded(s)
  {
    if bs == [] then "" else EncodeByte(bs[0]) + EncodeBytes(bs[1..])
  }

  /** The bytes an encoded string stands for: `+` is a space, `%XX` one byte, an unreserved char itself. */
  function DecodeBytes(s: string): Option<seq<byte>>
    decreases |s|
  {
    if s == [] then Some([])
    else if s[0] == '%' then
      if |s| >= 3 && HexValue(s[1]).Some? && HexValue(s[2]).Some? then
        Prepend(HexValue(s[1]).value * 16 + HexValue(s[2]).value, DecodeBytes(s[3..]))
      else None
    else if s[0] == '+' then Prepend(0x20, DecodeBytes(s[1..]))
    else if IsUnreserved(s[0]) then Prepend(s[0] as int, DecodeBytes(s[1..]))
    else None
  }

  function Prepend(b: int, rest: Option<seq<byte>>): Option<seq<byte>> {
    if 0 <= b < 256 && rest.Some? then Some([b as byte] + rest.value) else None
  }

  /** The text an encoded string stands for, or `None` if it is not a well-formed encoding. */
  function Decode(s: string): Option<string> {
    match DecodeBytes(s)
    case None => None
    case Some(bs) => Utf8.Decode(bs)
  }

  lemma DecodeBytesStep(b: byte, rest: string)
    ensures DecodeBytes(EncodeByte(b) + rest) == Prepend(b, DecodeBytes(rest))
  {
    var s := EncodeByte(b) + rest;
    if b == 0x20 {
      assert s[1..] == rest;
    } else if IsUnreserved(b as char) {
      assert s[1..] == rest;
    } else {
      assert s[3..] == rest;
    }
  }

  /** Parsing the serialized bytes gives the bytes back. */
  lemma {:induction false} DecodeEncodeBytes(bs: seq<byte>)
    ensures DecodeBytes(EncodeBytes(bs)) == Some(bs)
    decreases |bs|
  {
    if bs != [] {
      DecodeBytesStep(bs[0], EncodeBytes(bs[1..]));
      DecodeEncodeBytes(bs[1..]);
      assert bs == [bs[0]] + bs[1..];
    }
  }

  lemma {:induction false} EncodeBytesAppend(xs: seq<byte>, ys: seq<byte>)
    ensures EncodeBytes(xs + ys) == EncodeBytes(xs) + EncodeBytes(ys)
    decreases |xs|
  {
    if xs == [] {
      assert xs + ys == ys;
    } else {
      assert (xs + ys)[1..] == xs[1..] + ys;
      EncodeBytesAppend(xs[1..], ys);
    }
  }

  /** Bytes the serializer must escape are written as `%XX` each. */
  lemma {:induction false} EncodeBytesEscaped(bs: seq<byte>)
    requires forall i :: 0 <= i < |bs| ==> bs[i] >= 0x80
    ensures EncodeBytes(bs) == PercentBytes(bs)
    decreases |bs|
  {
    if bs != [] {
      EncodeBytesEscaped(bs[1..]);
    }
  }

  /**
   The char-by-char view of `URLEncoder` agrees with serializing the UTF-8
   bytes of the whole string.
   */
  lemma {:induction false} EncodeIsByteSerialization(s: string)
    ensures Encode(s) == EncodeBytes(Utf8.Encode(s))
    decreases |s|
  {
    if s != [] {
      var c := s[0];
      var head := Utf8.EncodeChar(c);
      EncodeBytesAppend(head, Utf8.Encode(s[1..]));
      EncodeIsByteSerialization(s[1..]);
      if (c as int) < 0x80 {
        assert head == [c as int];
        assert EncodeBytes(head) == EncodeByte(c as int) + EncodeBytes([]);
        EncodeAsciiChar(c);
      } else {
        EncodeBytesEscaped(head);
      }
    }
  }

  /** An ASCII char is written as its single UTF-8 byte is. */
  lemma EncodeAsciiChar(c: char)
    requires (c as int) < 0x80
    ensures EncodeChar(c) == EncodeByte(c as int)
  {
    var b: byte := c as int;
    assert b as char == c;
    if !IsUnreserved(c) && c != ' ' {
      assert Utf8.EncodeChar(c) == [b];
      assert PercentBytes([b]) == PercentByte(b) + PercentBytes([]);
    }
  }

  /** Decoding recovers every string from its form encoding. */
  lemma DecodeEncode(s: string)
    ensures Decode(Encode(s)) == Some(s)
  {
    EncodeIsByteSerialization(s);
    DecodeEncodeBytes(Utf8.Encode(s));
    Utf8.DecodeEncode(s);
  }

  /** Distinct strings have distinct encodings. */
  lemma EncodeInjective(s: string, t: string)
    requires Encode(s) == Encode(t)
    ensures s == t
  {
    DecodeEncode(s);
    DecodeEncode(t);
  }

  /** Every encoded string is ASCII. */
  lemma EncodedIsAscii(s: string)
    requires IsEncoded(s)
    ensures forall i :: 0 <= i < |s| ==> (s[i] as int) < 0x80
  {
  }
}

=== FILE: http_query_api.dfy ===
/**
 `HttpQueryApi.executeQuery` end to end: the request it prepares, what it
 makes of the server's reply, and the parser it hands the stream to. The
 network exchange itself is a parameter: `reply` is what the server sent
 back for the prepared request.
 */
module HttpQueryApi {
  import opened Optionals
  import opened Results
  import opened JavaStrings
  import opened QueryErrors
  import opened QueryRequest
  import opened QueryResponse

  /** What an `HttpQueryApi` is constructed with; the token may be null. */
  datatype Client = Client(endpoint: string, userAgent: string, authToken: Option<string>)

  /** The standard response parsers. */
  datatype ParserKind = RdfParser | SparqlResultsParser

  /** Most desirable first: graph results (DESCRIBE, CONSTRUCT) before tables (SELECT, ASK, SQL). */
  const StandardParsers: seq<ParserKind> := [RdfParser, SparqlResultsParser]

  /**
   The accept-type declarations of the standard parsers, in the same order;
   each parser's own declaration is not part of this model and is given.
   */
  function StandardRegistry(rdfAcceptTypes: string, sparqlResultsAcceptTypes: string): (registry: seq<string>)
    ensures |registry| == |StandardParsers|
    ensures forall i :: 0 <= i < |registry| ==>
      registry[i] == (if StandardParsers[i] == RdfParser then rdfAcceptTypes else sparqlResultsAcceptTypes)
  {
    [rdfAcceptTypes, sparqlResultsAcceptTypes]
  }

  /** A query that got as far as parsing: the request sent, and how the response body is read. */
  datatype Exchange = Exchange(request: HttpRequest, parser: ParserKind, contentType: Option<string>, inflate: bool)

  /** `executeQuery`: prepare and send the request, then check and dispatch the reply. */
  function ExecuteQuery(
    client: Client, rdfAcceptTypes: string, sparqlResultsAcceptTypes: string,
    query: string, params: seq<Parameter>, maxRows: Option<Int32>, timeout: Option<Int32>,
    reply: Reply): (r: Result<Exchange, QueryError>)
    ensures !AllNamesValid(params) ==> r.Err? && r.error.InvalidArgument?
    ensures r.Ok? ==> reply.status == 200 && AllNamesValid(params)
    ensures AllNamesValid(params) && TimeoutsAccepted(ResolveTimeouts(timeout)) ==>
      (reply.status >= 400 ==> r.Err? && r.error.HttpStatusFailure?)
      && (reply.status < 400 && reply.status != 200 ==> r.Err? && r.error.UnexpectedResponse?)
      && (reply.status == 200 && r.Err? ==>
            r.error.UnsupportedContentType? && r.error.contentType == TrimHeader(reply.contentType))
    ensures r.Ok? ==>
      && r.value.contentType == TrimHeader(reply.contentType)
      && (r.value.inflate <==> ShouldInflate(reply.contentEncoding))
    ensures AllNamesValid(params) && !TimeoutsAccepted(ResolveTimeouts(timeout)) ==>
      r == Err(RequestFailure(RequestFailureMessage(client.endpoint)))
    ensures r.Ok? ==>
      PrepareRequest(client.endpoint, query, params, maxRows, timeout,
                     StandardRegistry(rdfAcceptTypes, sparqlResultsAcceptTypes), client.userAgent, client.authToken)
      == Ok(r.value.request)
    ensures AllNamesValid(params) && TimeoutsAccepted(ResolveTimeouts(timeout)) && reply.status >= 400 ==>
      r == Err(HttpStatusFailure(reply.status, HttpFailureMessage(client.endpoint, reply.status, reply.message, reply.errorDetail)))
    ensures AllNamesValid(params) && TimeoutsAccepted(ResolveTimeouts(timeout)) && reply.status < 400 && reply.status != 200 ==>
      r == Err(UnexpectedResponse(reply.status, UnexpectedResponseMessage(client.endpoint, reply.status, reply.message)))
  {
    var registry := StandardRegistry(rdfAcceptTypes, sparqlResultsAcceptTypes);
    match PrepareRequest(client.endpoint, query, params, maxRows, timeout, registry, client.userAgent, client.authToken)
    case Err(e) => Err(e)
    case Ok(request) =>
      match HandleReply(client.endpoint, registry, reply)
      case Err(e) => Err(e)
      case Ok(d) => Ok(Exchange(request, StandardParsers[d.parser], d.contentType, d.inflate))
  }

  /**
   The RDF parser is preferred: it is chosen exactly when it accepts the
   content type, and the SPARQL-results parser only when that one accepts it
   and the RDF parser does not. A 200 reply to a well-formed request fails
   only when neither accepts it.
   */
  lemma ExecuteQueryParserChoice(
    client: Client, rdfAcceptTypes: string, sparqlResultsAcceptTypes: string,
    query: string, params: seq<Parameter>, maxRows: Option<Int32>, timeout: Option<Int32>,
    reply: Reply)
    ensures var r := ExecuteQuery(client, rdfAcceptTypes, sparqlResultsAcceptTypes, query, params, maxRows, timeout, reply);
      r.Ok? ==>
        && (r.value.parser == RdfParser <==> AcceptsType(rdfAcceptTypes, r.value.contentType))
        && (r.value.parser == SparqlResultsParser ==> AcceptsType(sparqlResultsAcceptTypes, r.value.contentType))
    ensures var r := ExecuteQuery(client, rdfAcceptTypes, sparqlResultsAcceptTypes, query, params, maxRows, timeout, reply);
      AllNamesValid(params) && TimeoutsAccepted(ResolveTimeouts(timeout)) && reply.status == 200 ==>
        (r.Ok? <==> AcceptsType(rdfAcceptTypes, TrimHeader(reply.contentType))
                    || AcceptsType(sparqlResultsAcceptTypes, TrimHeader(reply.contentType)))
  {
    var registry := StandardRegistry(rdfAcceptTypes, sparqlResultsAcceptTypes);
    var contentType := TrimHeader(reply.contentType);
    if AllNamesValid(params) && TimeoutsAccepted(ResolveTimeouts(timeout)) && reply.status == 200 {
      var h := HandleReply(client.endpoint, registry, reply);
      assert h.Ok? <==> AcceptsType(registry[0], contentType) || AcceptsType(registry[1], contentType);
      if h.Ok? {
        assert h.value.parser == 0 <==> AcceptsType(registry[0], contentType);
      }
    }
  }

  /**
   A bad parameter name fails the call before anything is sent: the outcome
   does not depend on what a server would have replied.
   */
  lemma RejectedBeforeSending(
    client: Client, rdfAcceptTypes: string, sparqlResultsAcceptTypes: string,
    query: string, params: seq<Parameter>, maxRows: Option<Int32>, timeout: Option<Int32>,
    reply: Reply, otherReply: Reply)
    requires !AllNamesValid(params)
    ensures ExecuteQuery(client, rdfAcceptTypes, sparqlResultsAcceptTypes, query, params, maxRows, timeout, reply)
         == ExecuteQuery(client, rdfAcceptTypes, sparqlResultsAcceptTypes, query, params, maxRows, timeout, otherReply)
  {
  }

  // ---------------------------------------------------------------------
  // What the Accept header promises against what dispatch accepts
  // ---------------------------------------------------------------------

  /** How a server reads an `Accept` value: the base value of each comma-separated element. */
  function AdvertisedTypes(header: string): seq<string> {
    BaseValues(Split(header, ','))
  }

  /** The space after each comma of the joined header is not part of any advertised type. */
  lemma AdvertisedTypesLeadingSpace(s: string)
    ensures AdvertisedTypes([' '] + s) == AdvertisedTypes(s)
  {
    var spaced := [' '] + s;
    var rest := Split(s, ',');
    assert spaced[1..] == s;
    assert Split(spaced, ',') == [[' '] + rest[0]] + rest[1..];
    BaseValueLeadingSpace(rest[0]);
    BaseValuesAppend([[' '] + rest[0]], rest[1..]);
    BaseValuesAppend([rest[0]], rest[1..]);
    assert rest == [rest[0]] + rest[1..];
  }

  /** The advertised types of the joined header are those of the entries, taken together. */
  lemma {:induction false} AdvertisedTypesOfJoin(registry: seq<string>, t: string)
    requires |t| > 0
    ensures t in AdvertisedTypes(Join(registry, ", ")) <==> exists i :: 0 <= i < |registry| && t in AdvertisedTypes(registry[i])
    decreases |registry|
  {
    if |registry| == 0 {
      var empty := Join(registry, ", ");
      assert Split(empty, ',') == [empty];
      BaseValueEmpty(empty);
    } else if |registry| == 1 {
      SomeEntry(registry, t, AdvertisedTypes);
    } else {
      AdvertisedTypesOfJoinStep(registry);
      AdvertisedTypesOfJoin(registry[1..], t);
      SomeEntry(registry, t, AdvertisedTypes);
    }
  }

  /** The joined header advertises the first entry's types, then those of the rest joined. */
  lemma AdvertisedTypesOfJoinStep(registry: seq<string>)
    requires |registry| > 1
    ensures AdvertisedTypes(Join(registry, ", ")) == AdvertisedTypes(registry[0]) + AdvertisedTypes(Join(registry[1..], ", "))
  {
    JoinCommaSpace(registry);
    AdvertisedTypesAroundComma(registry[0], Join(registry[1..], ", "));
  }

  /** The `Accept` join of two or more entries: the first, `,`, a space and the rest joined. */
  lemma JoinCommaSpace(registry: seq<string>)
    requires |registry| > 1
    ensures Join(registry, ", ") == registry[0] + [','] + ([' '] + Join(registry[1..], ", "))
  {
    assert registry == [registry[0]] + registry[1..];
    JoinCons(registry[0], registry[1..], ", ");
  }

  /** A `, ` between two values separates their advertised types. */
  lemma AdvertisedTypesAroundComma(a: string, b: string)
    ensures AdvertisedTypes(a + [','] + ([' '] + b)) == AdvertisedTypes(a) + AdvertisedTypes(b)
  {
    var spaced := [' '] + b;
    SplitAround(a, spaced, ',');
    BaseValuesAppend(Split(a, ','), Split(spaced, ','));
    AdvertisedTypesLeadingSpace(b);
  }

  /** Some entry has `t` exactly when the first one does or some later one does. */
  lemma SomeEntry(registry: seq<string>, t: string, types: string -> seq<string>)
    requires |registry| > 0
    ensures (exists i :: 0 <= i < |registry| && t in types(registry[i]))
        <==> t in types(registry[0]) || exists i :: 0 <= i < |registry[1..]| && t in types(registry[1..][i])
  {
    if exists i :: 1 <= i < |registry| && t in types(registry[i]) {
      var i :| 1 <= i < |registry| && t in types(registry[i]);
      assert registry[1..][i - 1] == registry[i];
    }
    if exists i :: 0 <= i < |registry[1..]| && t in types(registry[1..][i]) {
      var i :| 0 <= i < |registry[1..]| && t in types(registry[1..][i]);
      assert registry[i + 1] == registry[1..][i];
    }
  }

  /**
   Content negotiation is consistent: a non-empty content type is dispatched
   to some parser exactly when the `Accept` header the request sent
   advertises it.
   */
  lemma AcceptHeaderMatchesDispatch(endpoint: string, registry: seq<string>, contentType: string)
    requires |contentType| > 0
    ensures Dispatch(endpoint, registry, Some(contentType)).Ok? <==> contentType in AdvertisedTypes(AcceptHeader(registry))
  {
    AdvertisedTypesOfJoin(registry, contentType);
    forall i | 0 <= i < |registry|
      ensures AcceptsType(registry[i], Some(contentType)) <==> contentType in AdvertisedTypes(registry[i])
    {
      DeclaredTypesAllPieces(registry[i], contentType);
    }
  }
}

=== FILE: java_strings.dfy ===
/**
 The few `java.lang.String` / `Integer` behaviours the transport relies on:
 `trim`, single-character `split` (with and without Java's removal of
 trailing empty strings), joining with a delimiter, and the decimal
 rendering of `Integer.toString`, each with an independent characterisation
 or an inverse. `%d` gives the same text only under a format locale whose
 zero digit is `'0'`.
 */
module JavaStrings {
  import opened Optionals

  /** `String.trim` strips every char at or below U+0020 from both ends. */
  predicate IsTrimmable(c: char) {
    c <= ' '
  }

  predicate AllTrimmable(s: string) {
    forall i :: 0 <= i < |s| ==> IsTrimmable(s[i])
  }

  /** Drops the leading trimmable chars: the result is the suffix that starts at the first other char. */
  function TrimStart(s: string): (r: string)
    ensures |r| <= |s| && r == s[|s| - |r|..]
    ensures |r| > 0 ==> !IsTrimmable(r[0])
    decreases |s|
  {
    if |s| > 0 && IsTrimmable(s[0]) then TrimStart(s[1..]) else s
  }

  /** What `TrimStart` drops is all trimmable. */
  lemma {:induction false} TrimStartDrops(s: string)
    ensures AllTrimmable(s[..|s| - |TrimStart(s)|])
    decreases |s|
  {
    if |s| > 0 && IsTrimmable(s[0]) {
      TrimStartDrops(s[1..]);
      var n := |s| - |TrimStart(s)|;
      assert s[..n] == [s[0]] + s[1..][..n - 1];
    }
  }

  /** Drops the trailing trimmable chars: the result is the prefix that ends at the last other char. */
  function TrimEnd(s: string): (r: string)
    ensures |r| <= |s| && r == s[..|r|]
    ensures |r| > 0 ==> !IsTrimmable(r[|r| - 1])
    decreases |s|
  {
    if |s| > 0 && IsTrimmable(s[|s| - 1]) then TrimEnd(s[..|s| - 1]) else s
  }

  /** What `TrimEnd` drops is all trimmable. */
  lemma {:induction false} TrimEndDrops(s: string)
    ensures AllTrimmable(s[|TrimEnd(s)|..])
    decreases |s|
  {
    if |s| > 0 && IsTrimmable(s[|s| - 1]) {
      TrimEndDrops(s[..|s| - 1]);
      var n := |TrimEnd(s)|;
      assert s[n..] == s[..|s| - 1][n..] + [s[|s| - 1]];
    }
  }

  /** `String.trim`. */
  function Trim(s: string): (r: string)
    ensures |r| > 0 ==> !IsTrimmable(r[0]) && !IsTrimmable(r[|r| - 1])
  {
    TrimEnd(TrimStart(s))
  }

  /** `trim` adds no char, and yields the empty string exactly for an all-whitespace input. */
  lemma TrimSubset(s: string)
    ensures forall c :: c in Trim(s) ==> c in s
    ensures Trim(s) == [] <==> AllTrimmable(s)
  {
    var t := TrimStart(s);
    var r := TrimEnd(t);
    TrimStartDrops(s);
    TrimEndDrops(t);
    assert forall c :: c in r ==> c in t;
    assert forall c :: c in t ==> c in s;
    if r == [] {
      assert s == s[..|s| - |t|] + t;
    }
  }

  /** `r` is `s[i..j]` with only trimmable chars around it. */
  predicate FramedBy(s: string, r: string, i: int, j: int) {
    0 <= i <= j <= |s| && r == s[i..j] && AllTrimmable(s[..i]) && AllTrimmable(s[j..])
  }

  /** `trim` removes only trimmable chars: the input is the result framed by two runs of them. */
  lemma TrimFrames(s: string)
    ensures exists i, j :: FramedBy(s, Trim(s), i, j)
  {
    var t := TrimStart(s);
    var r := TrimEnd(t);
    TrimStartDrops(s);
    TrimEndDrops(t);
    var i := |s| - |t|;
    var j := i + |r|;
    assert r == s[i..j];
    assert t[|r|..] == s[j..];
    assert FramedBy(s, Trim(s), i, j);
  }

  /** A string without trimmable ends is its own trim. */
  lemma TrimFixedPoint(s: string)
    requires |s| > 0 ==> !IsTrimmable(s[0]) && !IsTrimmable(s[|s| - 1])
    ensures Trim(s) == s
  {
  }

  /** `trim` is idempotent. */
  lemma TrimIdempotent(s: string)
    ensures Trim(Trim(s)) == Trim(s)
  {
    TrimFixedPoint(Trim(s));
  }

  /** A leading space never survives `trim`. */
  lemma TrimLeadingSpace(s: string)
    ensures Trim([' '] + s) == Trim(s)
  {
    assert ([' '] + s)[1..] == s;
  }

  /** The number of occurrences of `c` in `s`. */
  function Count(s: string, c: char): (n: nat)
    ensures n <= |s|
    ensures n == 0 <==> c !in s
  {
    if s == [] then 0 else (if s[0] == c then 1 else 0) + Count(s[1..], c)
  }

  /** The parts of `xs` glued together with `sep` between neighbours. */
  function Join(xs: seq<string>, sep: string): (r: string)
    ensures |xs| == 1 ==> r == xs[0]
    decreases |xs|
  {
    if |xs| == 0 then "" else if |xs| == 1 then xs[0] else xs[0] + sep + Join(xs[1..], sep)
  }

  /** Joining distributes over concatenation of non-empty lists. */
  lemma {:induction false} JoinAppend(xs: seq<string>, ys: seq<string>, sep: string)
    requires |xs| > 0 && |ys| > 0
    ensures Join(xs + ys, sep) == Join(xs, sep) + sep + Join(ys, sep)
    decreases |xs|
  {
    if |xs| == 1 {
      assert (xs + ys)[1..] == ys;
    } else {
      assert (xs + ys)[1..] == xs[1..] + ys;
      JoinAppend(xs[1..], ys, sep);
    }
  }

  /** A join starts with the first piece and ends with the last. */
  lemma {:induction false} JoinEnds(xs: seq<string>, sep: string)
    requires |xs| > 0
    ensures StartsWith(Join(xs, sep), xs[0])
    ensures EndsWith(Join(xs, sep), xs[|xs| - 1])
    decreases |xs|
  {
    if |xs| > 1 {
      JoinEnds(xs[1..], sep);
      var r := Join(xs, sep);
      var t := Join(xs[1..], sep);
      assert r == xs[0] + sep + t;
      assert r[|r| - |t|..] == t;
    }
  }

  /** `f` applied to each string, in order. */
  function MapEach(f: string -> string, xs: seq<string>): (r: seq<string>)
    ensures |r| == |xs|
  {
    if xs == [] then [] else [f(xs[0])] + MapEach(f, xs[1..])
  }

  lemma {:induction false} MapEachAt(f: string -> string, xs: seq<string>, k: nat)
    requires k < |xs|
    ensures MapEach(f, xs)[k] == f(xs[k])
    decreases k
  {
    if k > 0 {
      MapEachAt(f, xs[1..], k - 1);
    }
  }

  lemma {:induction false} MapEachAppend(f: string -> string, a: seq<string>, b: seq<string>)
    ensures MapEach(f, a + b) == MapEach(f, a) + MapEach(f, b)
    decreases |a|
  {
    if a == [] {
      assert a + b == b;
    } else {
      assert (a + b)[1..] == a[1..] + b;
      MapEachAppend(f, a[1..], b);
    }
  }

  /**
   Every piece of `s` between occurrences of `sep`, empty pieces included:
   the segments that `split` starts from.
   */
  function Split(s: string, sep: char): (parts: seq<string>)
    ensures |parts| > 0
    decreases |s|
  {
    if s == [] then [""]
    else
      var rest := Split(s[1..], sep);
      if s[0] == sep then [""] + rest
      else [[s[0]] + rest[0]] + rest[1..]
  }

  /**
   The pieces are separator-free, one more than the separators, and joining
   them back with the separator gives the input.
   */
  lemma {:induction false} SplitPieces(s: string, sep: char)
    ensures |Split(s, sep)| == Count(s, sep) + 1
    ensures forall i :: 0 <= i < |Split(s, sep)| ==> sep !in Split(s, sep)[i]
    ensures Join(Split(s, sep), [sep]) == s
    decreases |s|
  {
    if s != [] {
      var rest := Split(s[1..], sep);
      SplitPieces(s[1..], sep);
      if s[0] == sep {
        assert s == [sep] + s[1..];
        assert ([""] + rest)[1..] == rest;
      } else {
        assert s == [s[0]] + s[1..];
        JoinHeadExtend(rest, s[0], [sep]);
        var parts := Split(s, sep);
        assert parts[1..] == rest[1..];
        forall i | 0 <= i < |parts|
          ensures sep !in parts[i]
        {
          if i == 0 {
            assert parts[0] == [s[0]] + rest[0];
          } else {
            assert parts[i] == rest[i];
          }
        }
      }
    }
  }

  lemma JoinCons(x: string, xs: seq<string>, sep: string)
    requires |xs| > 0
    ensures Join([x] + xs, sep) == x + sep + Join(xs, sep)
  {
    assert ([x] + xs)[1..] == xs;
  }

  /** Prefixing the first part prefixes the join. */
  lemma JoinHeadExtend(parts: seq<string>, c: char, sep: string)
    requires |parts| > 0
    ensures Join([[c] + parts[0]] + parts[1..], sep) == [c] + Join(parts, sep)
  {
    var head, tail := parts[0], parts[1..];
    if |tail| > 0 {
      JoinCons([c] + head, tail, sep);
      JoinCons(head, tail, sep);
      assert parts == [head] + tail;
      var rest := Join(tail, sep);
      assert ([c] + head) + sep + rest == [c] + (head + sep + rest);
    } else {
      assert [[c] + head] + tail == [[c] + head];
      assert parts == [head];
    }
  }

  /** Splitting undoes joining when no part holds the separator. */
  lemma {:induction false} SplitJoin(xs: seq<string>, sep: char)
    requires |xs| > 0
    requires forall i :: 0 <= i < |xs| ==> sep !in xs[i]
    ensures Split(Join(xs, [sep]), sep) == xs
    decreases |xs|
  {
    if |xs| == 1 {
      SplitNoSeparator(xs[0], sep);
    } else {
      SplitAround(xs[0], Join(xs[1..], [sep]), sep);
      SplitNoSeparator(xs[0], sep);
      SplitJoin(xs[1..], sep);
      assert xs == [xs[0]] + xs[1..];
    }
  }

  /** A string without the separator splits into itself. */
  lemma {:induction false} SplitNoSeparator(s: string, sep: char)
    requires sep !in s
    ensures Split(s, sep) == [s]
    decreases |s|
  {
    if s != [] {
      assert sep !in s[1..] by {
        assert forall c :: c in s[1..] ==> c in s;
      }
      SplitNoSeparator(s[1..], sep);
      assert s == [s[0]] + s[1..];
    }
  }

  /** Splitting at one occurrence of the separator splits both sides independently. */
  lemma {:induction false} SplitAround(a: string, b: string, sep: char)
    ensures Split(a + [sep] + b, sep) == Split(a, sep) + Split(b, sep)
    decreases |a|
  {
    var s := a + [sep] + b;
    if a == [] {
      assert s[1..] == b;
    } else {
      assert s[1..] == a[1..] + [sep] + b;
      SplitAround(a[1..], b, sep);
    }
  }

  /** Drops every empty string at the end of the list. */
  function DropTrailingEmpty(xs: seq<string>): (r: seq<string>)
    ensures |r| <= |xs| && r == xs[..|r|]
    ensures forall i :: |r| <= i < |xs| ==> xs[i] == ""
    ensures |r| > 0 ==> r[|r| - 1] != ""
    decreases |xs|
  {
    if |xs| > 0 && xs[|xs| - 1] == "" then DropTrailingEmpty(xs[..|xs| - 1]) else xs
  }

  /**
   `s.split(String.valueOf(sep))` in Java: the input itself when the separator
   does not occur, otherwise the segments with the trailing empty ones removed.
   */
  function JavaSplit(s: string, sep: char): seq<string> {
    if sep !in s then [s] else DropTrailingEmpty(Split(s, sep))
  }

  /** Java's `split` keeps exactly the non-empty segments that the plain split sees. */
  lemma JavaSplitNonEmpty(s: string, sep: char, t: string)
    requires t != ""
    ensures t in JavaSplit(s, sep) <==> t in Split(s, sep)
  {
    var parts := Split(s, sep);
    if sep !in s {
      SplitNoSeparator(s, sep);
    } else {
      var kept := DropTrailingEmpty(parts);
      if t in parts {
        var i :| 0 <= i < |parts| && parts[i] == t;
        assert i < |kept|;
        assert kept[i] == t;
      }
    }
  }

  function DigitChar(d: nat): (c: char)
    requires d < 10
    ensures '0' <= c <= '9'
  {
    (('0' as int) + d) as char
  }

  function DigitValue(c: char): (d: nat)
    requires '0' <= c <= '9'
    ensures d < 10 && DigitChar(d) == c
  {
    (c as int) - ('0' as int)
  }

  predicate IsDigits(s: string) {
    forall i :: 0 <= i < |s| ==> '0' <= s[i] <= '9'
  }

  /** The decimal digits of a natural number, without leading zeros. */
  function NatToString(n: nat): (s: string)
    ensures |s| > 0 && IsDigits(s)
    ensures |s| > 1 ==> s[0] != '0'
  {
    if n < 10 then [DigitChar(n)] else NatToString(n / 10) + [DigitChar(n % 10)]
  }

  /**
   `Integer.toString(n)`: a minus sign for negatives, then the ASCII digits.
   `String.format("%d", n)` writes the same only when the default format
   locale's zero digit is `'0'`; other locales substitute their own digits.
   */
  function IntToString(n: int): (s: string)
    ensures |s| > 0
    ensures n >= 0 ==> IsDigits(s)
    ensures n < 0 ==> s[0] == '-' && IsDigits(s[1..])
  {
    if n < 0 then ['-'] + NatToString(-n) else NatToString(n)
  }

  /** Reads decimal digits back. */
  function DigitsValue(s: string): nat
    requires IsDigits(s)
  {
    if s == [] then 0 else DigitsValue(s[..|s| - 1]) * 10 + DigitValue(s[|s| - 1])
  }

  /** Reads back an optional minus sign and at least one digit; anything else is not a number. */
  function ParseInt(s: string): Option<int> {
    if |s| > 1 && s[0] == '-' && IsDigits(s[1..]) then Some(0 - DigitsValue(s[1..]))
    else if |s| > 0 && IsDigits(s) then Some(DigitsValue(s))
    else None
  }

  lemma {:induction false} DigitsValueNatToString(n: nat)
    ensures DigitsValue(NatToString(n)) == n
  {
    if n >= 10 {
      var s := NatToString(n);
      assert s[..|s| - 1] == NatToString(n / 10);
      DigitsValueNatToString(n / 10);
    }
  }

  lemma ParseSigned(digits: string)
    requires |digits| > 0 && IsDigits(digits)
    ensures ParseInt(['-'] + digits) == Some(0 - DigitsValue(digits))
  {
    assert (['-'] + digits)[1..] == digits;
  }

  lemma ParseUnsigned(digits: string)
    requires |digits| > 0 && IsDigits(digits)
    ensures ParseInt(digits) == Some(DigitsValue(digits))
  {
    assert digits[0] != '-';
  }

  /** The decimal rendering of an integer reads back as that integer. */
  lemma IntToStringRoundTrip(n: int)
    ensures ParseInt(IntToString(n)) == Some(n)
  {
    if n < 0 {
      var digits := NatToString(-n);
      assert IntToString(n) == ['-'] + digits;
      DigitsValueNatToString(-n);
      ParseSigned(digits);
    } else {
      DigitsValueNatToString(n);
      ParseUnsigned(NatToString(n));
    }
  }

  /** Distinct integers render differently. */
  lemma IntToStringInjective(m: int, n: int)
    requires IntToString(m) == IntToString(n)
    ensures m == n
  {
    IntToStringRoundTrip(m);
    IntToStringRoundTrip(n);
  }

  /** How `String.format`'s `%s` renders a possibly-null string: `null` reads as the text "null". */
  function ValueOf(s: Option<string>): (r: string)
    ensures s.Some? ==> r == s.value
    ensures s.None? ==> r == "null"
  {
    match s
    case None => "null"
    case Some(t) => t
  }

  predicate StartsWith(s: string, prefix: string) {
    |prefix| <= |s| && s[..|prefix|] == prefix
  }

  predicate EndsWith(s: string, suffix: string) {
    |suffix| <= |s| && s[|s| - |suffix|..] == suffix
  }

  /** A concatenation starts with its first part and ends with its second. */
  lemma ConcatEnds(a: string, b: string)
    ensures StartsWith(a + b, a) && EndsWith(a + b, b)
  {
    assert (a + b)[..|a|] == a;
    assert (a + b)[|a|..] == b;
  }

  predicate OccursAt(s: string, part: string, i: int) {
    0 <= i <= |s| - |part| && s[i..i + |part|] == part
  }

  /** `s.contains(part)`. */
  predicate Mentions(s: string, part: string) {
    exists i :: 0 <= i <= |s| && OccursAt(s, part, i)
  }

  /** The index of the first occurrence of `c`. */
  function IndexOf(s: string, c: char): (i: nat)
    requires c in s
    ensures i < |s| && s[i] == c && c !in s[..i]
  {
    if s[0] == c then 0 else 1 + IndexOf(s[1..], c)
  }

  /** The first occurrence of `c` is right after a prefix that does not contain it. */
  lemma {:induction false} IndexOfAfter(a: string, c: char, b: string)
    requires c !in a
    ensures IndexOf(a + [c] + b, c) == |a|
    decreases |a|
  {
    var s := a + [c] + b;
    if a != [] {
      assert s[1..] == a[1..] + [c] + b;
      assert c !in a[1..] by {
        assert forall x :: x in a[1..] ==> x in a;
      }
      IndexOfAfter(a[1..], c, b);
    }
  }
}

=== FILE: optionals.dfy ===
/**
 Null-coalescing helpers of the driver (`Optionals`), with Java's nullable
 references modelled as `Option`. A Java `null` is `None`; any other
 reference `x` is `Some(x)`.
 */
module Optionals {

  /** A nullable value: `None` stands for Java's `null`. */
  datatype Option<+T> = None | Some(value: T)

  /** `or(a, b)`: `a` when it is non-null, otherwise `b` (which may itself be null). */
  function Or<T>(a: Option<T>, b: Option<T>): (r: Option<T>)
    ensures a.Some? ==> r == a
    ensures a.None? ==> r == b
    ensures r.Some? <==> a.Some? || b.Some?
  {
    match a
    case Some(_) => a
    case None => b
  }

  /** `or(a, b)` applied to a non-null default, as the transport does for its timeout. */
  function OrElse<T>(a: Option<T>, default: T): (r: T)
    ensures a.Some? ==> r == a.value
    ensures a.None? ==> r == default
  {
    Or(a, Some(default)).value
  }

  /**
   `mapIfPresent(a, f)`: null when `a` is null, otherwise whatever `f`
   returns for `a` (which may again be null).
   */
  function MapIfPresent<T, U>(a: Option<T>, f: T -> Option<U>): (r: Option<U>)
    ensures a.None? ==> r.None?
    ensures a.Some? ==> r == f(a.value)
  {
    match a
    case None => None
    case Some(x) => f(x)
  }

  /**
   `nullOrEquals(a, b)`: true when `a` is null, otherwise `a.equals(b)`;
   a non-null `a` never equals a null `b`.
   */
  predicate NullOrEquals<T(==)>(a: Option<T>, b: Option<T>)
  {
    a.None? || (b.Some? && a.value == b.value)
  }

  /**
   `nullOrMatches(pattern, s)`: true when `pattern` is null, otherwise the
   verdict of the LIKE matcher, which is a parameter here (`matches(s, pattern)`).
   */
  predicate NullOrMatches(pattern: Option<string>, s: string, matches: (string, string) -> bool)
  {
    pattern.None? || matches(s, pattern.value)
  }

  /**
   `nullOrContains(arr, x)`: true when the array is null, otherwise whether
   the array holds `x`, where null elements match a null `x` (the semantics of
   `Arrays.asList(arr).contains(x)`).
   */
  predicate NullOrContains<T(==)>(arr: Option<seq<Option<T>>>, x: Option<T>)
  {
    arr.None? || exists i :: 0 <= i < |arr.value| && arr.value[i] == x
  }

  /** The first non-null of three values does not depend on how `or` is nested. */
  lemma OrAssociative<T>(a: Option<T>, b: Option<T>, c: Option<T>)
    ensures Or(Or(a, b), c) == Or(a, Or(b, c))
  {
  }

  /** A present first argument absorbs whatever follows it. */
  lemma OrLeftAbsorbing<T>(x: T, b: Option<T>, c: Option<T>)
    ensures Or(Some(x), b) == Some(x)
    ensures Or(Or(Some(x), b), c) == Some(x)
  {
  }

  /** Null is a neutral element of `or` on both sides. */
  lemma OrNeutral<T>(a: Option<T>)
    ensures Or(None, a) == a
    ensures Or(a, None) == a
  {
  }

  /** `nullOrEquals` is exactly: absent, or present and equal to the other side. */
  lemma NullOrEqualsMeaning<T>(a: Option<T>, b: Option<T>)
    ensures NullOrEquals(a, b) <==> a.None? || a == b
    ensures a.Some? ==> (NullOrEquals(a, b) <==> b == a)
  {
  }

  /** `nullOrMatches` accepts every string when the pattern is null, whatever the matcher. */
  lemma NullOrMatchesNullPattern(s: string, matches: (string, string) -> bool)
    ensures NullOrMatches(None, s, matches)
  {
  }

  /** A present pattern defers exactly to the matcher. */
  lemma NullOrMatchesPresent(p: string, s: string, matches: (string, string) -> bool)
    ensures NullOrMatches(Some(p), s, matches) <==> matches(s, p)
  {
  }

  /** `nullOrContains` is membership in the array, or true for a null array. */
  lemma NullOrContainsMeaning<T>(arr: Option<seq<Option<T>>>, x: Option<T>)
    ensures arr.None? ==> NullOrContains(arr, x)
    ensures arr.Some? ==> (NullOrContains(arr, x) <==> x in arr.value)
  {
    if arr.Some? && x in arr.value {
      var i :| 0 <= i < |arr.value| && arr.value[i] == x;
    }
  }

  /** Mapping a present value twice is mapping once with the composed step. */
  lemma MapIfPresentCompose<T, U, V>(a: Option<T>, f: T -> Option<U>, g: U -> Option<V>)
    ensures MapIfPresent(MapIfPresent(a, f), g) == MapIfPresent(a, (x: T) => MapIfPresent(f(x), g))
  {
  }
}

/** The outcome of an operation that the driver would end with an exception. */
module Results {

  datatype Result<+T, +E> = Ok(value: T) | Err(error: E)
}

=== FILE: query_errors.dfy ===
/**
 The failures `HttpQueryApi` reports, one constructor per way a call can
 end in an `SQLException`, each carrying the message text the driver builds.
 */
module QueryErrors {
  import opened Optionals

  datatype QueryError =
    | InvalidArgument(message: string)                   // a parameter name that `check` refuses
    | HttpStatusFailure(status: int, message: string)    // status 400 or above
    | UnexpectedResponse(status: int, message: string)   // any other status except 200
    | UnsupportedContentType(contentType: Option<string>, message: string)  // no parser accepts the content type
    | RequestFailure(message: string)                    // the connection refused its settings before sending
}

=== FILE: query_request.dfy ===
/**
 The request side of `HttpQueryApi`: validating parameter names and laying
 out the form fields (`executeQuery`), then, in `post`, the form-encoded
 body, the `Accept` value derived from the parser registry, the resolved
 timeouts and the request headers. Opening the connection and writing the
 bytes are not modelled; the values computed for them are.
 */
module QueryRequest {
  import opened Optionals
  import opened Results
  import opened JavaStrings
  import opened QueryErrors
  import FormUrlEncoding
  import Utf8

  /** Java's `Integer`. */
  type Int32 = x: int | -0x8000_0000 <= x < 0x8000_0000

  // ---------------------------------------------------------------------
  // An insertion-ordered string map (`LinkedHashMap<String, String>`)
  // ---------------------------------------------------------------------

  /** Entries in insertion order. */
  type Fields = seq<(string, string)>

  function Keys(m: Fields): (ks: seq<string>)
    ensures |ks| == |m|
    ensures forall i :: 0 <= i < |m| ==> ks[i] == m[i].0
  {
    if m == [] then [] else [m[0].0] + Keys(m[1..])
  }

  /** `get`: the value of the first entry with that key. */
  function Lookup(m: Fields, k: string): (r: Option<string>)
    ensures r.Some? <==> k in Keys(m)
  {
    if m == [] then None else if m[0].0 == k then Some(m[0].1) else Lookup(m[1..], k)
  }

  /** `put`: a present key keeps its position and gets the new value; a new key goes last. */
  function Put(m: Fields, k: string, v: string): (r: Fields)
    ensures k !in Keys(m) ==> r == m + [(k, v)]
    ensures k in Keys(m) ==> Keys(r) == Keys(m)
  {
    if m == [] then [(k, v)]
    else if m[0].0 == k then [(k, v)] + m[1..]
    else
      var r := [m[0]] + Put(m[1..], k, v);
      assert r[1..] == Put(m[1..], k, v);
      assert Keys(m) == [m[0].0] + Keys(m[1..]);
      r
  }

  /** After `put`, the key maps to the new value and every other key is unaffected. */
  lemma {:induction false} PutLookup(m: Fields, k: string, v: string, other: string)
    ensures Lookup(Put(m, k, v), k) == Some(v)
    ensures other != k ==> Lookup(Put(m, k, v), other) == Lookup(m, other)
    decreases |m|
  {
    if m != [] && m[0].0 != k {
      PutLookup(m[1..], k, v, other);
      assert Put(m, k, v)[1..] == Put(m[1..], k, v);
    }
  }

  // ---------------------------------------------------------------------
  // executeQuery: the request fields
  // ---------------------------------------------------------------------

  /** A bound parameter: its name, and the wire form of its term (`Node.toString`), or null. */
  type Parameter = (string, Option<string>)

  /** The check `executeQuery` applies to every parameter name. */
  predicate IsValidParameterName(name: string) {
    |name| > 1 && name[0] == '$'
  }

  predicate AllNamesValid(params: seq<Parameter>) {
    forall i :: 0 <= i < |params| ==> IsValidParameterName(params[i].0)
  }

  /** The names of a Java map are distinct. */
  predicate DistinctNames(params: seq<Parameter>) {
    forall i, j :: 0 <= i < j < |params| ==> params[i].0 != params[j].0
  }

  function IllegalNameMessage(name: string): string {
    "Illegal parameter name: " + name
  }

  /**
   The loop over the parameters: each name is checked in turn, and a
   non-null value is put under its name; the first bad name ends the loop.
   */
  function AddParameters(m: Fields, params: seq<Parameter>): Result<Fields, QueryError>
    decreases |params|
  {
    if params == [] then Ok(m)
    else if !IsValidParameterName(params[0].0) then Err(InvalidArgument(IllegalNameMessage(params[0].0)))
    else AddParameters(PutParameter(m, params[0]), params[1..])
  }

  /** A null value leaves the map as it is; any other value is put under the name. */
  function PutParameter(m: Fields, p: Parameter): Fields {
    match p.1
    case None => m
    case Some(v) => Put(m, p.0, v)
  }

  const QueryKey: string := "query"
  const MaxRowsKey: string := "maxRowsReturned"

  /** `executeQuery`'s request map: `query`, the bound parameters, then the row cap if one was given. */
  function RequestFields(query: string, params: seq<Parameter>, maxRows: Option<Int32>): Result<Fields, QueryError> {
    match AddParameters(Put([], QueryKey, query), params)
    case Err(e) => Err(e)
    case Ok(m) =>
      match maxRows
      case None => Ok(m)
      case Some(n) => Ok(Put(m, MaxRowsKey, IntToString(n)))
  }

  /** The fields contributed by the parameters: one per non-null value, in order. */
  function BoundFields(params: seq<Parameter>): (r: Fields)
    ensures |r| <= |params|
  {
    if params == [] then []
    else
      match params[0].1
      case None => BoundFields(params[1..])
      case Some(v) => [(params[0].0, v)] + BoundFields(params[1..])
  }

  /** Every bound field is a parameter's name with its non-null value. */
  lemma {:induction false} BoundFieldsFromParameters(params: seq<Parameter>, e: (string, string))
    requires e in BoundFields(params)
    ensures exists i :: 0 <= i < |params| && params[i] == (e.0, Some(e.1))
    decreases |params|
  {
    if params[0] != (e.0, Some(e.1)) {
      BoundFieldsFromParameters(params[1..], e);
      var i :| 0 <= i < |params[1..]| && params[1..][i] == (e.0, Some(e.1));
      assert params[i + 1] == (e.0, Some(e.1));
    }
  }

  /** A bound parameter's value is present in the request exactly when it is non-null. */
  lemma BoundFieldsKeys(params: seq<Parameter>, name: string)
    requires DistinctNames(params)
    ensures name in Keys(BoundFields(params)) <==> exists i :: 0 <= i < |params| && params[i].0 == name && params[i].1.Some?
  {
    if params != [] {
      assert DistinctNames(params[1..]) by {
        forall i, j | 0 <= i < j < |params[1..]|
          ensures params[1..][i].0 != params[1..][j].0
        {
          assert params[1..][i] == params[i + 1] && params[1..][j] == params[j + 1];
        }
      }
      BoundFieldsKeys(params[1..], name);
      if exists i :: 1 <= i < |params| && params[i].0 == name && params[i].1.Some? {
        var i :| 1 <= i < |params| && params[i].0 == name && params[i].1.Some?;
        assert params[1..][i - 1] == params[i];
      }
      if exists i :: 0 <= i < |params[1..]| && params[1..][i].0 == name && params[1..][i].1.Some? {
        var i :| 0 <= i < |params[1..]| && params[1..][i].0 == name && params[1..][i].1.Some?;
        assert params[i + 1] == params[1..][i];
      }
    }
  }

  lemma KeysAppend(m: Fields, n: Fields)
    ensures Keys(m + n) == Keys(m) + Keys(n)
  {
  }

  /** The rest of a list of valid, distinct names is again valid and distinct. */
  lemma ParametersTail(params: seq<Parameter>)
    requires |params| > 0 && AllNamesValid(params) && DistinctNames(params)
    ensures AllNamesValid(params[1..]) && DistinctNames(params[1..])
  {
    forall i | 0 <= i < |params[1..]| ensures IsValidParameterName(params[1..][i].0) {
      assert params[1..][i] == params[i + 1];
    }
    forall i, j | 0 <= i < j < |params[1..]|
      ensures params[1..][i].0 != params[1..][j].0
    {
      assert params[1..][i] == params[i + 1] && params[1..][j] == params[j + 1];
    }
  }

  /**
   When no parameter name is already a key and the names are distinct,
   putting the parameters one by one is plain concatenation.
   */
  lemma {:induction false} AddParametersAppends(m: Fields, params: seq<Parameter>)
    requires AllNamesValid(params) && DistinctNames(params)
    requires forall i :: 0 <= i < |params| ==> params[i].0 !in Keys(m)
    ensures AddParameters(m, params) == Ok(m + BoundFields(params))
    decreases |params|
  {
    if params == [] {
      assert m + BoundFields(params) == m;
    } else {
      var m' := PutParameter(m, params[0]);
      ParametersTail(params);
      NotYetKeys(m, params);
      AddParametersAppends(m', params[1..]);
      assert m' + BoundFields(params[1..]) == m + BoundFields(params);
    }
  }

  /**
   After the first parameter is put, the map has grown by exactly its field,
   and the later names are still not keys.
   */
  lemma NotYetKeys(m: Fields, params: seq<Parameter>)
    requires |params| > 0 && DistinctNames(params)
    requires forall i :: 0 <= i < |params| ==> params[i].0 !in Keys(m)
    ensures PutParameter(m, params[0]) + BoundFields(params[1..]) == m + BoundFields(params)
    ensures forall i :: 0 <= i < |params[1..]| ==> params[1..][i].0 !in Keys(PutParameter(m, params[0]))
  {
    var name, value := params[0].0, params[0].1;
    if value.Some? {
      assert Put(m, name, value.value) == m + [(name, value.value)];
      KeysAppend(m, [(name, value.value)]);
    }
    forall i | 0 <= i < |params[1..]|
      ensures params[1..][i].0 != name && params[1..][i].0 !in Keys(m)
    {
      assert params[1..][i] == params[i + 1];
    }
  }

  /**
   A parameter name that fails the check ends the loop with an error naming
   the first such name; otherwise the loop succeeds.
   */
  lemma {:induction false} AddParametersValidation(m: Fields, params: seq<Parameter>)
    ensures AddParameters(m, params).Ok? <==> AllNamesValid(params)
    ensures AddParameters(m, params).Err? ==>
      exists i :: 0 <= i < |params| && !IsValidParameterName(params[i].0)
        && (forall j :: 0 <= j < i ==> IsValidParameterName(params[j].0))
        && AddParameters(m, params).error == InvalidArgument(IllegalNameMessage(params[i].0))
    decreases |params|
  {
    if params != [] {
      if IsValidParameterName(params[0].0) {
        var m' := PutParameter(m, params[0]);
        AddParametersValidation(m', params[1..]);
        if AllNamesValid(params[1..]) {
          assert AllNamesValid(params) by {
            forall i | 0 <= i < |params| ensures IsValidParameterName(params[i].0) {
              if i > 0 {
                assert params[i] == params[1..][i - 1];
              }
            }
          }
        } else {
          var i :| 0 <= i < |params[1..]| && !IsValidParameterName(params[1..][i].0)
            && (forall j :: 0 <= j < i ==> IsValidParameterName(params[1..][j].0))
            && AddParameters(m', params[1..]).error == InvalidArgument(IllegalNameMessage(params[1..][i].0));
          assert params[i + 1] == params[1..][i];
          forall j | 0 <= j < i + 1 ensures IsValidParameterName(params[j].0) {
            if j > 0 {
              assert params[j] == params[1..][j - 1];
            }
          }
        }
      }
    }
  }

  /** The names `executeQuery` itself puts in the map can never be parameter names. */
  lemma ReservedKeysAreNotParameterNames(name: string)
    requires IsValidParameterName(name)
    ensures name != QueryKey && name != MaxRowsKey
  {
  }

  /**
   The request fields are `query` first, then one field per non-null
   parameter in the given order, then `maxRowsReturned` exactly when a cap
   is given; nothing else.
   */
  lemma RequestFieldsLayout(query: string, params: seq<Parameter>, maxRows: Option<Int32>)
    requires AllNamesValid(params) && DistinctNames(params)
    ensures RequestFields(query, params, maxRows) == Ok(
      [(QueryKey, query)] + BoundFields(params)
      + (if maxRows.Some? then [(MaxRowsKey, IntToString(maxRows.value))] else []))
  {
    var start := Put([], QueryKey, query);
    assert start == [(QueryKey, query)];
    forall i | 0 <= i < |params| ensures params[i].0 !in Keys(start) {
      ReservedKeysAreNotParameterNames(params[i].0);
    }
    AddParametersAppends(start, params);
    var m := start + BoundFields(params);
    if maxRows.Some? {
      assert MaxRowsKey !in Keys(m) by {
        KeysAppend(start, BoundFields(params));
        BoundFieldsKeys(params, MaxRowsKey);
      }
      var cap := [(MaxRowsKey, IntToString(maxRows.value))];
      assert Put(m, MaxRowsKey, IntToString(maxRows.value)) == m + cap;
      assert RequestFields(query, params, maxRows) == Ok(m + cap);
    } else {
      assert m + [] == m;
    }
  }

  /** Any bad parameter name fails the call, naming the first such name. */
  lemma RequestFieldsValidation(query: string, params: seq<Parameter>, maxRows: Option<Int32>)
    ensures RequestFields(query, params, maxRows).Ok? <==> AllNamesValid(params)
    ensures RequestFields(query, params, maxRows).Err? ==>
      exists i :: 0 <= i < |params| && !IsValidParameterName(params[i].0)
        && (forall j :: 0 <= j < i ==> IsValidParameterName(params[j].0))
        && RequestFields(query, params, maxRows).error == InvalidArgument(IllegalNameMessage(params[i].0))
  {
    AddParametersValidation(Put([], QueryKey, query), params);
  }

  // ---------------------------------------------------------------------
  // post: the form-encoded body
  // ---------------------------------------------------------------------

  /** `encode(key) + "=" + encode(value)`. */
  function EncodeField(f: (string, string)): (s: string)
    ensures |s| > 0 && '&' !in s
  {
    FormUrlEncoding.Encode(f.0) + "=" + FormUrlEncoding.Encode(f.1)
  }

  function EncodeFields(fields: Fields): (r: seq<string>)
    ensures |r| == |fields|
    ensures forall i :: 0 <= i < |r| ==> r[i] == EncodeField(fields[i])
  {
    if fields == [] then [] else [EncodeField(fields[0])] + EncodeFields(fields[1..])
  }

  /** The body: the encoded fields joined by `&`. */
  function FormBody(fields: Fields): string {
    Join(EncodeFields(fields), "&")
  }

  /**
   The body-building loop of `post`: an `&` before every field but the
   first (the buffer is non-empty exactly after the first field), then the
   encoded field.
   */
  method BuildBody(fields: Fields) returns (body: string)
    ensures body == FormBody(fields)
  {
    body := "";
    var i := 0;
    while i < |fields|
      invariant 0 <= i <= |fields|
      invariant body == FormBody(fields[..i])
      invariant |body| > 0 <==> i > 0
    {
      FormBodyStep(fields, i);
      if |body| > 0 {
        body := body + "&";
      }
      body := body + EncodeField(fields[i]);
      i := i + 1;
    }
    assert fields[..i] == fields;
  }

  /** The body of one more field: that field alone, or the body so far, `&`, and the field. */
  lemma FormBodyStep(fields: Fields, i: nat)
    requires i < |fields|
    ensures |FormBody(fields[..i])| > 0 <==> i > 0
    ensures FormBody(fields[..i + 1])
         == if i == 0 then EncodeField(fields[0]) else FormBody(fields[..i]) + "&" + EncodeField(fields[i])
  {
    var prefix, field := EncodeFields(fields[..i]), EncodeField(fields[i]);
    assert fields[..i + 1] == fields[..i] + [fields[i]];
    assert EncodeFields(fields[..i + 1]) == prefix + [field];
    if i > 0 {
      JoinAppend(prefix, [field], "&");
      JoinEnds(prefix, "&");
    } else {
      assert prefix == [];
    }
  }

  /** Reads one `key=value` segment back. */
  function ParseField(segment: string): Option<(string, string)> {
    var sides := Split(segment, '=');
    if |sides| != 2 then None
    else
      match (FormUrlEncoding.Decode(sides[0]), FormUrlEncoding.Decode(sides[1]))
      case (Some(k), Some(v)) => Some((k, v))
      case _ => None
  }

  function ParseFields(segments: seq<string>): Option<Fields> {
    if segments == [] then Some([])
    else
      match (ParseField(segments[0]), ParseFields(segments[1..]))
      case (Some(f), Some(rest)) => Some([f] + rest)
      case _ => None
  }

  /** Reads a body back: split on `&`, each segment split on `=` and decoded. */
  function ParseBody(body: string): Option<Fields> {
    ParseFields(Split(body, '&'))
  }

  lemma ParseEncodedField(f: (string, string))
    ensures ParseField(EncodeField(f)) == Some(f)
  {
    var k, v := FormUrlEncoding.Encode(f.0), FormUrlEncoding.Encode(f.1);
    assert EncodeField(f) == Join([k, v], "=");
    SplitJoin([k, v], '=');
    FormUrlEncoding.DecodeEncode(f.0);
    FormUrlEncoding.DecodeEncode(f.1);
  }

  lemma {:induction false} ParseEncodedFields(fields: Fields)
    ensures ParseFields(EncodeFields(fields)) == Some(fields)
    decreases |fields|
  {
    if fields != [] {
      ParseEncodedField(fields[0]);
      ParseEncodedFields(fields[1..]);
      assert EncodeFields(fields)[1..] == EncodeFields(fields[1..]);
      assert fields == [fields[0]] + fields[1..];
    }
  }

  /** Splitting the body on `&` gives one segment per field, in field order. */
  lemma BodySegments(fields: Fields)
    requires |fields| > 0
    ensures Split(FormBody(fields), '&') == EncodeFields(fields)
  {
    SplitJoin(EncodeFields(fields), '&');
  }

  /** Parsing the body gives back exactly the fields, in order. */
  lemma BodyRoundTrip(fields: Fields)
    requires |fields| > 0
    ensures ParseBody(FormBody(fields)) == Some(fields)
  {
    BodySegments(fields);
    ParseEncodedFields(fields);
  }

  /** n fields are joined by exactly n - 1 separators, with none at either end. */
  lemma BodySeparators(fields: Fields)
    requires |fields| > 0
    ensures Count(FormBody(fields), '&') == |fields| - 1
    ensures var body := FormBody(fields); |body| > 0 && body[0] != '&' && body[|body| - 1] != '&'
  {
    var body := FormBody(fields);
    var segments := EncodeFields(fields);
    BodySegments(fields);
    SplitPieces(body, '&');
    JoinEnds(segments, "&");
  }

  /** The body is ASCII, so its UTF-8 byte count (the fixed streaming length) is its length. */
  lemma BodyLength(fields: Fields)
    ensures |Utf8.Encode(FormBody(fields))| == |FormBody(fields)|
  {
    var body := FormBody(fields);
    forall i | 0 <= i < |body| ensures (body[i] as int) < 0x80 {
      BodyIsAscii(EncodeFields(fields), i);
    }
    Utf8.EncodeAscii(body);
  }

  lemma {:induction false} BodyIsAscii(segments: seq<string>, i: int)
    requires forall k :: 0 <= k < |segments| ==> exists f :: segments[k] == EncodeField(f)
    requires 0 <= i < |Join(segments, "&")|
    ensures (Join(segments, "&")[i] as int) < 0x80
    decreases |segments|
  {
    if |segments| == 1 {
      var f :| segments[0] == EncodeField(f);
      EncodedFieldIsAscii(f, i);
    } else {
      var head := segments[0];
      var tail := Join(segments[1..], "&");
      assert Join(segments, "&") == head + "&" + tail;
      if i < |head| {
        var f :| segments[0] == EncodeField(f);
        EncodedFieldIsAscii(f, i);
      } else if i > |head| {
        assert forall k :: 0 <= k < |segments[1..]| ==> segments[1..][k] == segments[k + 1];
        BodyIsAscii(segments[1..], i - |head| - 1);
      }
    }
  }

  lemma EncodedFieldIsAscii(f: (string, string), i: int)
    requires 0 <= i < |EncodeField(f)|
    ensures (EncodeField(f)[i] as int) < 0x80
  {
    var k, v := FormUrlEncoding.Encode(f.0), FormUrlEncoding.Encode(f.1);
    FormUrlEncoding.EncodedIsAscii(k);
    FormUrlEncoding.EncodedIsAscii(v);
    if i < |k| {
      assert EncodeField(f)[i] == k[i];
    } else if i > |k| {
      assert EncodeField(f)[i] == v[i - |k| - 1];
    }
  }

  // ---------------------------------------------------------------------
  // post: timeouts
  // ---------------------------------------------------------------------

  const MaxReadTimeout: int := 60
  const MaxConnectTimeout: int := 5

  /** Resolved timeouts, in seconds. */
  datatype Timeouts = Timeouts(read: Int32, connect: Int32)

  function Min(a: int, b: int): int {
    if a <= b then a else b
  }

  /**
   `readTimeout = min(or(timeoutSeconds, 60), 60)` and
   `connectTimeout = min(readTimeout, 5)`.
   */
  function ResolveTimeouts(requested: Option<Int32>): (t: Timeouts)
    ensures t.read <= MaxReadTimeout && t.connect <= MaxConnectTimeout && t.connect <= t.read
    ensures requested.None? ==> t == Timeouts(MaxReadTimeout, MaxConnectTimeout)
    ensures requested.Some? ==> t.read <= requested.value
    ensures requested.Some? && requested.value <= MaxReadTimeout ==> t.read == requested.value
    ensures requested.Some? && requested.value >= MaxReadTimeout ==> t.read == MaxReadTimeout
    ensures t.read <= MaxConnectTimeout ==> t.connect == t.read
    ensures t.read >= MaxConnectTimeout ==> t.connect == MaxConnectTimeout
  {
    var read := Min(OrElse(requested, MaxReadTimeout as Int32), MaxReadTimeout);
    Timeouts(read, Min(read, MaxConnectTimeout))
  }

  /** A caller's timeout can only lower the defaults, and a lower request never gives longer timeouts. */
  lemma TimeoutsOnlyShrink(x: Int32, y: Int32)
    ensures ResolveTimeouts(Some(x)).read <= ResolveTimeouts(None).read
    ensures ResolveTimeouts(Some(x)).connect <= ResolveTimeouts(None).connect
    ensures x <= y ==> ResolveTimeouts(Some(x)).read <= ResolveTimeouts(Some(y)).read
    ensures x <= y ==> ResolveTimeouts(Some(x)).connect <= ResolveTimeouts(Some(y)).connect
  {
  }

  lemma TimeoutExamples()
    ensures ResolveTimeouts(None) == Timeouts(60, 5)
    ensures ResolveTimeouts(Some(300)) == Timeouts(60, 5)
    ensures ResolveTimeouts(Some(3)) == Timeouts(3, 3)
  {
  }

  /** Java's `(int)` cast of a `long`: the low 32 bits, read as a signed value. */
  function ToInt32(x: int): (r: Int32)
    ensures -0x8000_0000 <= x < 0x8000_0000 ==> r == x
    ensures (x - r) % 0x1_0000_0000 == 0
  {
    ((x + 0x8000_0000) % 0x1_0000_0000) - 0x8000_0000
  }

  /**
   `(int) TimeUnit.SECONDS.toMillis(seconds)` as written. For an `int` count
   of seconds the `long` product never saturates; only the cast back to
   `int` wraps.
   */
  function SecondsToMillisAsWritten(seconds: Int32): Int32 {
    ToInt32(seconds * 1000)
  }

  /**
   Whether the connection takes the timeouts as written: it refuses a
   negative millisecond count, and it sees the wrapped ones.
   */
  predicate TimeoutsAcceptedAsWritten(t: Timeouts) {
    SecondsToMillisAsWritten(t.connect) >= 0 && SecondsToMillisAsWritten(t.read) >= 0
  }

  /**
   The smallest `Integer` timeout is not refused as written: its millisecond
   count wraps to 0, which the connection reads as "no timeout".
   */
  lemma MinimumTimeoutWrapsToZero()
    ensures var t := ResolveTimeouts(Some(-0x8000_0000));
            TimeoutsAcceptedAsWritten(t) && SecondsToMillisAsWritten(t.read) == 0 && SecondsToMillisAsWritten(t.connect) == 0
  {
  }

  /**
   As written, a negative timeout of -2147484 seconds is not refused either:
   both millisecond counts wrap to 2147483296 (about 24.9 days), far above
   the 60 and 5 second caps.
   */
  lemma WrappedTimeoutExceedsCaps()
    ensures var t := ResolveTimeouts(Some(-2147484));
            && TimeoutsAcceptedAsWritten(t)
            && SecondsToMillisAsWritten(t.read) == 2147483296 && SecondsToMillisAsWritten(t.connect) == 2147483296
            && SecondsToMillisAsWritten(t.read) > MaxReadTimeout * 1000
            && SecondsToMillisAsWritten(t.connect) > MaxConnectTimeout * 1000
  {
  }

  /** The millisecond count of a timeout, without the wrap-around of the `int` cast. */
  function TimeoutMillis(seconds: Int32): int {
    seconds * 1000
  }

  /** The connection refuses a negative timeout; both resolved timeouts must be non-negative in milliseconds. */
  predicate TimeoutsAccepted(t: Timeouts) {
    TimeoutMillis(t.connect) >= 0 && TimeoutMillis(t.read) >= 0
  }

  /**
   Without the wrap-around, every negative request is refused and exactly the
   absent and the non-negative ones are accepted. The accepted millisecond
   counts are numerically at most 5000 to connect and 60000 to read,
   connecting no longer than reading. A request of 0 seconds is accepted with
   0 ms for both, which the connection takes as no timeout at all: these are
   numeric bounds, not a bound on how long a call may wait.
   */
  lemma TimeoutCaps(requested: Option<Int32>)
    ensures TimeoutsAccepted(ResolveTimeouts(requested)) <==> requested.None? || requested.value >= 0
    ensures var t := ResolveTimeouts(requested);
      TimeoutsAccepted(t) ==>
        && 0 <= TimeoutMillis(t.connect) <= MaxConnectTimeout * 1000
        && 0 <= TimeoutMillis(t.read) <= MaxReadTimeout * 1000
        && TimeoutMillis(t.connect) <= TimeoutMillis(t.read)
    ensures var t := ResolveTimeouts(requested);
      requested == Some(0) ==> TimeoutsAccepted(t) && TimeoutMillis(t.connect) == 0 && TimeoutMillis(t.read) == 0
  {
  }

  /**
   For every request of at least -2147483 seconds the code as written and
   the exact conversion agree: the same requests are accepted, with the same
   millisecond counts.
   */
  lemma TimeoutsAgreeAsWritten(requested: Option<Int32>)
    requires requested.Some? ==> requested.value >= -2147483
    ensures var t := ResolveTimeouts(requested);
      && (TimeoutsAcceptedAsWritten(t) <==> TimeoutsAccepted(t))
      && SecondsToMillisAsWritten(t.connect) == TimeoutMillis(t.connect)
      && SecondsToMillisAsWritten(t.read) == TimeoutMillis(t.read)
  {
  }

  // ---------------------------------------------------------------------
  // post: headers
  // ---------------------------------------------------------------------

  /** The `Accept` value: every registry entry's accept types, in registry order, joined by `", "`. */
  function AcceptHeader(registry: seq<string>): string {
    Join(registry, ", ")
  }

  const FormContentType: string := "application/x-www-form-urlencoded; charset=utf-8"

  /** The request headers `post` sets, in order; `Authorization` only with a token. */
  function RequestHeaders(accept: string, userAgent: string, authToken: Option<string>): Fields {
    [("Content-Type", FormContentType), ("Accept", accept), ("Accept-Encoding", "gzip"), ("User-Agent", userAgent)]
    + match authToken
      case None => []
      case Some(token) => [("Authorization", "Bearer " + token)]
  }

  /** `get` finds the first entry with the key. */
  lemma {:induction false} LookupFirst(m: Fields, i: nat, k: string)
    requires i < |m| && m[i].0 == k
    requires forall j :: 0 <= j < i ==> m[j].0 != k
    ensures Lookup(m, k) == Some(m[i].1)
    decreases i
  {
    if i > 0 {
      LookupFirst(m[1..], i - 1, k);
    }
  }

  /** What each fixed header carries, whatever the token. */
  lemma RequestHeadersValues(accept: string, userAgent: string, authToken: Option<string>)
    ensures var h := RequestHeaders(accept, userAgent, authToken);
            && Lookup(h, "Content-Type") == Some(FormContentType)
            && Lookup(h, "Accept") == Some(accept)
            && Lookup(h, "Accept-Encoding") == Some("gzip")
            && Lookup(h, "User-Agent") == Some(userAgent)
  {
    var h := RequestHeaders(accept, userAgent, authToken);
    var names := ["Content-Type", "Accept", "Accept-Encoding", "User-Agent"];
    assert forall j :: 0 <= j < 4 ==> h[j].0 == names[j];
    assert |names[0]| == 12 && |names[1]| == 6 && |names[2]| == 15 && |names[3]| == 10;
    LookupFirst(h, 0, names[0]);
    LookupFirst(h, 1, names[1]);
    LookupFirst(h, 2, names[2]);
    LookupFirst(h, 3, names[3]);
  }

  /** The bearer header appears exactly when a token is configured, and carries that token. */
  lemma RequestHeadersAuthorization(accept: string, userAgent: string, authToken: Option<string>)
    ensures Lookup(RequestHeaders(accept, userAgent, authToken), "Authorization")
            == MapIfPresent(authToken, (t: string) => Some("Bearer " + t))
  {
    var h := RequestHeaders(accept, userAgent, authToken);
    var names := ["Content-Type", "Accept", "Accept-Encoding", "User-Agent", "Authorization"];
    assert forall j :: 0 <= j < |h| ==> h[j].0 == names[j];
    assert |names[4]| == 13 && |names[0]| == 12 && |names[1]| == 6 && |names[2]| == 15 && |names[3]| == 10;
    if authToken.Some? {
      LookupFirst(h, 4, names[4]);
    } else {
      assert names[4] !in Keys(h);
    }
  }

  // ---------------------------------------------------------------------
  // The request as sent
  // ---------------------------------------------------------------------

  /** What `post` hands to the connection: body, its fixed byte length, headers and timeouts in milliseconds. */
  datatype HttpRequest = HttpRequest(body: string, contentLength: nat, headers: Fields, connectTimeoutMillis: Int32, readTimeoutMillis: Int32)

  function RequestFailureMessage(endpoint: string): string {
    "Unexpected exception while making HTTP request to server: " + endpoint
  }

  /**
   `executeQuery` and `post` up to sending: the request, or the failure
   that stops it first. A bad parameter name fails before anything is
   built; a refused timeout fails when the connection is configured. The
   timeouts are converted to milliseconds exactly, without the wrap-around
   of the `int` cast (see `WrappedTimeoutExceedsCaps`).
   */
  function PrepareRequest(
    endpoint: string, query: string, params: seq<Parameter>, maxRows: Option<Int32>, timeout: Option<Int32>,
    registry: seq<string>, userAgent: string, authToken: Option<string>): (r: Result<HttpRequest, QueryError>)
    ensures r.Ok? <==> AllNamesValid(params) && TimeoutsAccepted(ResolveTimeouts(timeout))
    ensures r.Ok? <==> AllNamesValid(params) && (timeout.None? || timeout.value >= 0)
    ensures r.Err? && !AllNamesValid(params) ==> r.error.InvalidArgument?
    ensures r.Err? && AllNamesValid(params) ==> r.error == RequestFailure(RequestFailureMessage(endpoint))
    ensures r.Ok? ==> r.value.contentLength == |r.value.body|
                      && r.value.connectTimeoutMillis == TimeoutMillis(ResolveTimeouts(timeout).connect)
                      && r.value.readTimeoutMillis == TimeoutMillis(ResolveTimeouts(timeout).read)
                      && 0 <= r.value.connectTimeoutMillis <= MaxConnectTimeout * 1000
                      && 0 <= r.value.readTimeoutMillis <= MaxReadTimeout * 1000
                      && Lookup(r.value.headers, "Accept") == Some(AcceptHeader(registry))
    ensures r.Ok? ==> r.value.headers == RequestHeaders(AcceptHeader(registry), userAgent, authToken)
    ensures r.Ok? ==> RequestFields(query, params, maxRows).Ok?
                      && r.value.body == FormBody(RequestFields(query, params, maxRows).value)
  {
    RequestFieldsValidation(query, params, maxRows);
    match RequestFields(query, params, maxRows)
    case Err(e) => Err(e)
    case Ok(fields) =>
      var body := FormBody(fields);
      var t := ResolveTimeouts(timeout);
      if !TimeoutsAccepted(t) then Err(RequestFailure(RequestFailureMessage(endpoint)))
      else
        BodyLength(fields);
        RequestHeadersValues(AcceptHeader(registry), userAgent, authToken);
        Ok(HttpRequest(body, |Utf8.Encode(body)|, RequestHeaders(AcceptHeader(registry), userAgent, authToken),
                       TimeoutMillis(t.connect), TimeoutMillis(t.read)))
  }

  /** A request that is prepared carries exactly the laid-out fields in its body. */
  lemma PreparedBodyCarriesFields(
    endpoint: string, query: string, params: seq<Parameter>, maxRows: Option<Int32>, timeout: Option<Int32>,
    registry: seq<string>, userAgent: string, authToken: Option<string>)
    requires DistinctNames(params)
    requires PrepareRequest(endpoint, query, params, maxRows, timeout, registry, userAgent, authToken).Ok?
    ensures ParseBody(PrepareRequest(endpoint, query, params, maxRows, timeout, registry, userAgent, authToken).value.body)
            == Some([(QueryKey, query)] + BoundFields(params)
                    + (if maxRows.Some? then [(MaxRowsKey, IntToString(maxRows.value))] else []))
  {
    RequestFieldsLayout(query, params, maxRows);
    BodyRoundTrip([(QueryKey, query)] + BoundFields(params)
                  + (if maxRows.Some? then [(MaxRowsKey, IntToString(maxRows.value))] else []));
  }
}

=== FILE: query_response.dfy ===
/**
 The response side of `HttpQueryApi.post`: normalising header values
 (`trimHeader`), the status-code policy, the decision to inflate a gzip
 body, and picking a parser from the ordered registry by content type
 (`parseResponse`). The network reply is an input; the streams, the
 decompression and the parsers themselves are not modelled.
 */
module QueryResponse {
  import opened Optionals
  import opened Results
  import opened JavaStrings
  import opened QueryErrors

  // ---------------------------------------------------------------------
  // trimHeader
  // ---------------------------------------------------------------------

  /** The chars `.` does not match in a `java.util.regex` pattern compiled without flags. */
  predicate IsLineTerminator(c: char) {
    c == '\n' || c == '\r' || c == '\U{85}' || c == '\U{2028}' || c == '\U{2029}'
  }

  /** How many chars of `t` come before its first line terminator. */
  function LineLength(t: string): (k: nat)
    ensures k <= |t|
    ensures forall i :: 0 <= i < k ==> !IsLineTerminator(t[i])
    ensures k < |t| ==> IsLineTerminator(t[k])
  {
    if t == [] || IsLineTerminator(t[0]) then 0 else 1 + LineLength(t[1..])
  }

  /**
   `s.replaceFirst(";.*", "")` as Java evaluates it: the match starts at the
   first `;` and, because `.` stops at a line terminator, ends there.
   */
  function StripParametersAsWritten(s: string): string {
    if ';' !in s then s
    else
      var i := IndexOf(s, ';');
      var j := i + 1 + LineLength(s[i + 1..]);
      s[..i] + s[j..]
  }

  /** `trimHeader` exactly as written: `replaceFirst(";.*", "")` and then `trim`. */
  function TrimHeaderAsWritten(header: Option<string>): Option<string> {
    match header
    case None => None
    case Some(h) => Some(Trim(StripParametersAsWritten(h)))
  }

  /** The part of `s` before its first `;`, or all of it. */
  function BeforeParameters(s: string): (r: string)
    ensures ';' !in r
    ensures |r| <= |s| && r == s[..|r|]
    ensures |r| < |s| ==> s[|r|] == ';'
  {
    if ';' in s then s[..IndexOf(s, ';')] else s
  }

  /** A header value reduced to its base value: everything from the first `;` on is dropped, then the rest trimmed. */
  function BaseValue(s: string): (r: string)
    ensures ';' !in r
    ensures |r| > 0 ==> !IsTrimmable(r[0]) && !IsTrimmable(r[|r| - 1])
  {
    TrimSubset(BeforeParameters(s));
    Trim(BeforeParameters(s))
  }

  /** `trimHeader`: null stays null; any other value is reduced to its base value. */
  function TrimHeader(header: Option<string>): (r: Option<string>)
    ensures r.Some? <==> header.Some?
    ensures r.Some? ==> ';' !in r.value
  {
    match header
    case None => None
    case Some(h) => Some(BaseValue(h))
  }

  /**
   `r` is the base value of `h` seen as positions: `h[i..j]`, with only
   whitespace before it and between it and position `k`, where `k` is the
   first `;` or the end.
   */
  predicate BaseValueAt(h: string, r: string, i: int, j: int, k: int) {
    && 0 <= i <= j <= k <= |h|
    && r == h[i..j] && AllTrimmable(h[..i]) && AllTrimmable(h[j..k])
    && ';' !in h[..k] && (k == |h| || h[k] == ';')
  }

  /**
   The base value is the trimmed text before the first `;`: the header is the
   base value framed by whitespace, followed by nothing or by a `;` and the rest.
   */
  lemma BaseValueFrames(h: string)
    ensures exists i, j, k :: BaseValueAt(h, BaseValue(h), i, j, k)
  {
    var p := BeforeParameters(h);
    var r := Trim(p);
    assert BaseValue(h) == r;
    TrimFrames(p);
    var i, j :| FramedBy(p, r, i, j);
    FramedInPrefix(h, p, r, i, j);
  }

  /** A frame found in a prefix of `h` is a frame of `h` up to the prefix's end. */
  lemma FramedInPrefix(h: string, p: string, r: string, i: int, j: int)
    requires |p| <= |h| && p == h[..|p|] && FramedBy(p, r, i, j)
    requires ';' !in p && (|p| == |h| || h[|p|] == ';')
    ensures BaseValueAt(h, r, i, j, |p|)
  {
    assert forall k :: 0 <= k < |p| ==> h[k] == p[k];
    assert h[..i] == p[..i];
    assert h[j..|p|] == p[j..];
    assert h[i..j] == p[i..j];
  }

  /** Only the text before the first `;` matters. */
  lemma BaseValueIgnoresParameters(base: string, rest: string)
    requires ';' !in base
    ensures BaseValue(base + ";" + rest) == BaseValue(base)
  {
    IndexOfAfter(base, ';', rest);
    assert (base + ";" + rest)[..|base|] == base;
  }

  /** A value without `;` and without surrounding whitespace is its own base value. */
  lemma BaseValueOfPlain(s: string)
    requires ';' !in s
    requires |s| > 0 ==> !IsTrimmable(s[0]) && !IsTrimmable(s[|s| - 1])
    ensures BaseValue(s) == s
  {
    TrimFixedPoint(s);
  }

  /** Normalising a header value twice changes nothing more. */
  lemma TrimHeaderIdempotent(header: Option<string>)
    ensures TrimHeader(TrimHeader(header)) == TrimHeader(header)
  {
    if header.Some? {
      var r := BaseValue(header.value);
      assert BeforeParameters(r) == r;
      TrimIdempotent(BeforeParameters(header.value));
    }
  }

  /** On a value without line terminators the written code and the base value agree. */
  lemma TrimHeaderAgreesWithoutLineTerminators(h: string)
    requires forall i :: 0 <= i < |h| ==> !IsLineTerminator(h[i])
    ensures TrimHeaderAsWritten(Some(h)) == TrimHeader(Some(h))
  {
    if ';' in h {
      var i := IndexOf(h, ';');
      var rest := h[i + 1..];
      assert forall k :: 0 <= k < |rest| ==> !IsLineTerminator(rest[k]);
      assert LineLength(rest) == |rest|;
      assert h[i + 1 + |rest|..] == [];
      assert StripParametersAsWritten(h) == h[..i];
    }
  }

  /**
   Where a line terminator follows the first `;`, the written code keeps
   everything after it, including any later `;`: on `a;<terminator>b;` it
   yields `a<terminator>b;`.
   */
  lemma TrimHeaderAsWrittenKeepsSemicolon(a: string, t: char, b: string)
    requires ';' !in a && |a| > 0 && !IsTrimmable(a[0])
    requires IsLineTerminator(t)
    ensures TrimHeaderAsWritten(Some(a + ";" + [t] + b + ";")) == Some(a + [t] + b + ";")
    ensures ';' in TrimHeaderAsWritten(Some(a + ";" + [t] + b + ";")).value
  {
    var h := a + ";" + [t] + b + ";";
    IndexOfAfter(a, ';', [t] + b + ";");
    assert h == a + [';'] + ([t] + b + ";");
    assert h[|a| + 1..] == [t] + b + ";";
    assert LineLength([t] + b + ";") == 0;
    assert h[..|a|] == a;
    var r := a + [t] + b + ";";
    assert StripParametersAsWritten(h) == r;
    assert r[|r| - 1] == ';';
    TrimFixedPoint(r);
  }

  /** ... while the base value of the same header is just `a` trimmed, so the two differ there. */
  lemma TrimHeaderAsWrittenDiffers(a: string, t: char, b: string)
    requires ';' !in a && |a| > 0 && !IsTrimmable(a[0])
    requires IsLineTerminator(t)
    ensures TrimHeaderAsWritten(Some(a + ";" + [t] + b + ";")) != TrimHeader(Some(a + ";" + [t] + b + ";"))
  {
    TrimHeaderAsWrittenKeepsSemicolon(a, t, b);
  }

  /**
   ... and the written code is not idempotent on such a header: a second
   pass strips the `;` the first one kept.
   */
  lemma TrimHeaderAsWrittenNotIdempotent(a: string, t: char, b: string)
    requires ';' !in a && |a| > 0 && !IsTrimmable(a[0])
    requires ';' !in b
    requires IsLineTerminator(t)
    ensures TrimHeaderAsWritten(TrimHeaderAsWritten(Some(a + ";" + [t] + b + ";")))
            != TrimHeaderAsWritten(Some(a + ";" + [t] + b + ";"))
  {
    TrimHeaderAsWrittenKeepsSemicolon(a, t, b);
    var x := a + [t] + b;
    assert ';' !in x;
    assert a + [t] + b + ";" == x + ";";
    StripFinalSemicolon(x);
    TrimSubset(x);
  }

  lemma StripFinalSemicolon(x: string)
    requires ';' !in x
    ensures StripParametersAsWritten(x + ";") == x
  {
    var r := x + ";";
    var nothing := r[|x| + 1..];
    assert |nothing| == 0;
    IndexOfAfter(x, ';', nothing);
    assert r == x + [';'] + nothing;
    assert LineLength(nothing) == 0;
    assert r[..|x|] == x;
  }

  /** A header with parameters has the base value of the part before them. */
  lemma BaseValueOfParameterised(base: string, parameters: string)
    requires ';' !in base
    requires |base| > 0 ==> !IsTrimmable(base[0]) && !IsTrimmable(base[|base| - 1])
    ensures TrimHeader(Some(base + ";" + parameters)) == Some(base)
  {
    BaseValueIgnoresParameters(base, parameters);
    BaseValueOfPlain(base);
  }

  // ---------------------------------------------------------------------
  // Content-Encoding
  // ---------------------------------------------------------------------

  /** Whether the body is inflated: the normalised `Content-Encoding` is exactly `gzip`. */
  predicate ShouldInflate(contentEncoding: Option<string>) {
    TrimHeader(contentEncoding) == Some("gzip")
  }

  /**
   A `gzip` encoding is recognised whatever parameters follow it. The
   literal is passed in as `gzip`, so that the proof reasons about a
   variable and does not unfold the normalisation of a literal.
   */
  lemma ShouldInflateGzip(gzip: string, parameters: string)
    requires gzip == "gzip"
    ensures ShouldInflate(Some(gzip))
    ensures ShouldInflate(Some(gzip + ";" + parameters))
  {
    BaseValueOfPlain(gzip);
    BaseValueOfParameterised(gzip, parameters);
  }

  /**
   On an encoding without line terminators, the decision agrees with the
   code as written: inflate exactly when `trimHeader` as written yields `gzip`.
   */
  lemma ShouldInflateAgreesWithoutLineTerminators(contentEncoding: Option<string>)
    requires contentEncoding.Some? ==>
      forall i :: 0 <= i < |contentEncoding.value| ==> !IsLineTerminator(contentEncoding.value[i])
    ensures ShouldInflate(contentEncoding) <==> TrimHeaderAsWritten(contentEncoding) == Some("gzip")
  {
    if contentEncoding.Some? {
      TrimHeaderAgreesWithoutLineTerminators(contentEncoding.value);
    }
  }

  /** A missing `Content-Encoding` never triggers inflation. */
  lemma ShouldInflateNull()
    ensures !ShouldInflate(None)
  {
  }

  // ---------------------------------------------------------------------
  // Status policy
  // ---------------------------------------------------------------------

  /** Whether the error-body detail is appended: it must be present and non-empty. */
  predicate HasDetail(detail: Option<string>) {
    detail.Some? && detail.value != ""
  }

  const RequestTo: string := "HTTP request to '"

  /** The fixed part of the message for a status of 400 or above: endpoint, code and status message. */
  function HttpFailureHead(endpoint: string, status: int, message: Option<string>): string {
    RequestTo + endpoint + "' failed with response " + IntToString(status) + (": " + ValueOf(message))
  }

  /**
   The message for a status of 400 or above: the fixed part, then `; ` and
   the detail when there is one, and nothing else.
   */
  function HttpFailureMessage(endpoint: string, status: int, message: Option<string>, detail: Option<string>): (m: string)
    ensures StartsWith(m, HttpFailureHead(endpoint, status, message))
    ensures HasDetail(detail) ==> EndsWith(m, "; " + detail.value)
    ensures !HasDetail(detail) ==> EndsWith(m, ": " + ValueOf(message))
    ensures |m| == |HttpFailureHead(endpoint, status, message)| + (if HasDetail(detail) then 2 + |detail.value| else 0)
  {
    var head := HttpFailureHead(endpoint, status, message);
    if HasDetail(detail) then
      var extra := "; " + detail.value;
      ConcatEnds(head, extra);
      head + extra
    else
      HttpFailureHeadEnds(endpoint, status, message);
      ConcatEnds(head, []);
      head
  }

  /** The fixed part ends with `: ` and the status message. */
  lemma HttpFailureHeadEnds(endpoint: string, status: int, message: Option<string>)
    ensures EndsWith(HttpFailureHead(endpoint, status, message), ": " + ValueOf(message))
  {
    var front := RequestTo + endpoint + "' failed with response " + IntToString(status);
    ConcatEnds(front, ": " + ValueOf(message));
  }

  /** The message for any other status except 200. */
  function UnexpectedResponseMessage(endpoint: string, status: int, message: Option<string>): (m: string)
    ensures StartsWith(m, RequestTo + endpoint + "' failed with unexpected response " + IntToString(status) + ": ")
    ensures EndsWith(m, ValueOf(message))
    ensures |m| == |RequestTo + endpoint + "' failed with unexpected response " + IntToString(status) + ": "| + |ValueOf(message)|
  {
    RequestTo + endpoint + "' failed with unexpected response " + IntToString(status) + ": " + ValueOf(message)
  }

  /**
   The failure a status code ends the call with, if any. `detail` is what the
   error-body extractor returned (absent when the server sent no error body);
   it is consulted only for statuses of 400 and above.
   */
  function StatusFailure(endpoint: string, status: int, message: Option<string>, detail: Option<string>): (r: Option<QueryError>)
    ensures r.None? <==> status == 200
    ensures status >= 400 ==>
      && r.Some? && r.value.HttpStatusFailure? && r.value.status == status
      && r.value.message == HttpFailureMessage(endpoint, status, message, detail)
    ensures status < 400 && status != 200 ==>
      && r.Some? && r.value.UnexpectedResponse? && r.value.status == status
      && r.value.message == UnexpectedResponseMessage(endpoint, status, message)
  {
    if status >= 400 then Some(HttpStatusFailure(status, HttpFailureMessage(endpoint, status, message, detail)))
    else if status != 200 then Some(UnexpectedResponse(status, UnexpectedResponseMessage(endpoint, status, message)))
    else None
  }

  /** The status code can be read back from a failure message. */
  lemma HttpFailureMessageNamesStatus(endpoint: string, status: int, message: Option<string>, detail: Option<string>)
    ensures var m := HttpFailureMessage(endpoint, status, message, detail);
            var at := |RequestTo + endpoint + "' failed with response "|;
            var code := IntToString(status);
            at + |code| <= |m| && ParseInt(m[at..at + |code|]) == Some(status)
  {
    var m := HttpFailureMessage(endpoint, status, message, detail);
    var lead := RequestTo + endpoint + "' failed with response ";
    var code := IntToString(status);
    var head := lead + code + ": " + ValueOf(message);
    assert m[..|head|] == head;
    assert m[|lead|..|lead| + |code|] == code;
    IntToStringRoundTrip(status);
  }

  /** The failure message names the status code and the status message, and the detail when there is one. */
  lemma HttpFailureMessageMentions(endpoint: string, status: int, message: Option<string>, detail: Option<string>)
    ensures var m := HttpFailureMessage(endpoint, status, message, detail);
            Mentions(m, IntToString(status)) && Mentions(m, ValueOf(message))
            && (HasDetail(detail) ==> Mentions(m, detail.value))
  {
    var m := HttpFailureMessage(endpoint, status, message, detail);
    var lead := RequestTo + endpoint + "' failed with response ";
    var code := IntToString(status);
    var text := ValueOf(message);
    var head := lead + code + ": " + text;
    assert m[..|head|] == head;
    assert m[|lead|..|lead| + |code|] == code;
    assert OccursAt(m, code, |lead|);
    assert m[|head| - |text|..|head|] == text;
    assert OccursAt(m, text, |head| - |text|);
    if HasDetail(detail) {
      assert OccursAt(m, detail.value, |m| - |detail.value|);
    }
  }

  // ---------------------------------------------------------------------
  // Parser dispatch
  // ---------------------------------------------------------------------

  /** The base value of each piece, in order. */
  function BaseValues(pieces: seq<string>): (r: seq<string>)
    ensures |r| == |pieces|
  {
    MapEach(BaseValue, pieces)
  }

  /** The `k`-th base value is that of the `k`-th piece. */
  lemma BaseValuesAt(pieces: seq<string>, k: nat)
    requires k < |pieces|
    ensures BaseValues(pieces)[k] == BaseValue(pieces[k])
  {
    MapEachAt(BaseValue, pieces, k);
  }

  /** The types one registry entry declares: the base values of the pieces of Java's `split(",")`. */
  function DeclaredTypes(acceptTypes: string): seq<string> {
    BaseValues(JavaSplit(acceptTypes, ','))
  }

  /**
   Whether one registry entry accepts the normalised content type: some
   declared type equals it. A null content type matches nothing.
   */
  predicate AcceptsType(acceptTypes: string, contentType: Option<string>) {
    contentType.Some? && contentType.value in DeclaredTypes(acceptTypes)
  }

  /** The first entry from `from` on, in registry order, that `accepts` holds of. */
  function FirstAccepting(registry: seq<string>, accepts: string -> bool, from: nat): (r: Option<nat>)
    requires from <= |registry|
    ensures r.Some? ==> from <= r.value < |registry| && accepts(registry[r.value])
    ensures r.Some? ==> forall j :: from <= j < r.value ==> !accepts(registry[j])
    ensures r.None? ==> forall j :: from <= j < |registry| ==> !accepts(registry[j])
    decreases |registry| - from
  {
    if from == |registry| then None
    else if accepts(registry[from]) then Some(from)
    else FirstAccepting(registry, accepts, from + 1)
  }

  /** `parseResponse`'s choice: the first entry, in registry order, that accepts the content type. */
  function SelectParser(registry: seq<string>, contentType: Option<string>): (r: Option<nat>)
    ensures r.Some? ==> r.value < |registry| && AcceptsType(registry[r.value], contentType)
    ensures r.Some? ==> forall j :: 0 <= j < r.value ==> !AcceptsType(registry[j], contentType)
    ensures r.None? ==> forall j :: 0 <= j < |registry| ==> !AcceptsType(registry[j], contentType)
  {
    FirstAccepting(registry, (e: string) => AcceptsType(e, contentType), 0)
  }

  function UnsupportedContentTypeMessage(endpoint: string, contentType: Option<string>): (m: string)
    ensures StartsWith(m, RequestTo + endpoint + "' failed with unexpected content type: ")
    ensures EndsWith(m, ValueOf(contentType))
    ensures |m| == |RequestTo + endpoint + "' failed with unexpected content type: "| + |ValueOf(contentType)|
  {
    var lead := RequestTo + endpoint + "' failed with unexpected content type: ";
    ConcatEnds(lead, ValueOf(contentType));
    lead + ValueOf(contentType)
  }

  /** `parseResponse` up to handing the stream over: the index of the chosen parser, or the failure. */
  function Dispatch(endpoint: string, registry: seq<string>, contentType: Option<string>): (r: Result<nat, QueryError>)
    ensures r.Ok? ==> r.value < |registry| && AcceptsType(registry[r.value], contentType)
    ensures r.Ok? ==> forall j :: 0 <= j < r.value ==> !AcceptsType(registry[j], contentType)
    ensures r.Err? <==> forall j :: 0 <= j < |registry| ==> !AcceptsType(registry[j], contentType)
    ensures r.Err? ==>
      && r.error.UnsupportedContentType? && r.error.contentType == contentType
      && r.error.message == UnsupportedContentTypeMessage(endpoint, contentType)
  {
    match SelectParser(registry, contentType)
    case Some(i) => Ok(i)
    case None => Err(UnsupportedContentType(contentType, UnsupportedContentTypeMessage(endpoint, contentType)))
  }

  /** An absent content type is never supported. */
  lemma DispatchNullContentType(endpoint: string, registry: seq<string>)
    ensures Dispatch(endpoint, registry, None).Err?
  {
  }

  /** An entry declaring a single accept type accepts exactly that type's base value. */
  lemma AcceptsSingleType(acceptType: string, contentType: string)
    requires ',' !in acceptType
    ensures AcceptsType(acceptType, Some(contentType)) <==> BaseValue(acceptType) == contentType
  {
    assert JavaSplit(acceptType, ',') == [acceptType];
    assert DeclaredTypes(acceptType) == [BaseValue(acceptType)];
  }

  /**
   A content type sent with parameters reaches the parser that declares its
   base value, even when a preferred entry declares another type.
   */
  lemma DispatchIgnoresParameters(endpoint: string, other: string, base: string, parameters: string)
    requires ',' !in other && ';' !in other && ',' !in base && ';' !in base
    requires |other| > 0 && !IsTrimmable(other[0]) && !IsTrimmable(other[|other| - 1])
    requires |base| > 0 && !IsTrimmable(base[0]) && !IsTrimmable(base[|base| - 1])
    requires other != base
    ensures Dispatch(endpoint, [other, base], TrimHeader(Some(base + ";" + parameters))) == Ok(1)
  {
    var registry := [other, base];
    var contentType := TrimHeader(Some(base + ";" + parameters));
    BaseValueOfParameterised(base, parameters);
    assert contentType == Some(base);
    BaseValueOfPlain(base);
    BaseValueOfPlain(other);
    AcceptsSingleType(base, base);
    AcceptsSingleType(other, base);
    assert AcceptsType(registry[1], contentType);
    assert !AcceptsType(registry[0], contentType);
    var r := SelectParser(registry, contentType);
    assert r.Some?;
    assert r.value == 1;
  }

  /** A char other than `;` in front of a value stays in front of its part before the parameters. */
  lemma BeforeParametersCons(c: char, s: string)
    requires c != ';'
    ensures BeforeParameters([c] + s) == [c] + BeforeParameters(s)
  {
    if ';' in s {
      var a := s[..IndexOf(s, ';')];
      var b := s[IndexOf(s, ';') + 1..];
      assert s == a + [';'] + b;
      assert [c] + s == ([c] + a) + [';'] + b;
      IndexOfAfter([c] + a, ';', b);
    } else {
      assert ';' !in [c] + s;
    }
  }

  /** A space in front of a header value does not change its base value. */
  lemma BaseValueLeadingSpace(s: string)
    ensures BaseValue([' '] + s) == BaseValue(s)
  {
    BeforeParametersCons(' ', s);
    TrimLeadingSpace(BeforeParameters(s));
  }

  /** The base value of an empty piece is empty. */
  lemma BaseValueEmpty(s: string)
    requires |s| == 0
    ensures |BaseValue(s)| == 0
  {
    TrimSubset(BeforeParameters(s));
  }

  lemma BaseValuesAppend(a: seq<string>, b: seq<string>)
    ensures BaseValues(a + b) == BaseValues(a) + BaseValues(b)
  {
    MapEachAppend(BaseValue, a, b);
  }

  /** Dropping empty trailing pieces loses no non-empty base value. */
  lemma BaseValuesOfKept(parts: seq<string>, kept: seq<string>, t: string)
    requires |t| > 0 && |kept| <= |parts| && kept == parts[..|kept|]
    requires forall i :: |kept| <= i < |parts| ==> |parts[i]| == 0
    ensures t in BaseValues(kept) <==> t in BaseValues(parts)
  {
    var dropped := parts[|kept|..];
    assert parts == kept + dropped;
    BaseValuesAppend(kept, dropped);
    forall k | 0 <= k < |dropped| ensures BaseValues(dropped)[k] != t {
      assert |dropped[k]| == 0;
      BaseValueEmpty(dropped[k]);
      BaseValuesAt(dropped, k);
    }
  }

  /**
   Java's `split` drops trailing empty pieces, but those have an empty base
   value; so for any non-empty type, an entry declares it exactly when one
   of its comma-separated pieces, all kept, has it as base value.
   */
  lemma DeclaredTypesAllPieces(acceptTypes: string, contentType: string)
    requires contentType != ""
    ensures contentType in DeclaredTypes(acceptTypes) <==> contentType in BaseValues(Split(acceptTypes, ','))
  {
    if ',' !in acceptTypes {
      SplitNoSeparator(acceptTypes, ',');
    } else {
      var parts := Split(acceptTypes, ',');
      var kept := DropTrailingEmpty(parts);
      forall i | |kept| <= i < |parts| ensures |parts[i]| == 0 {
        assert parts[i] == "";
      }
      BaseValuesOfKept(parts, kept, contentType);
    }
  }

  // ---------------------------------------------------------------------
  // The response as a whole
  // ---------------------------------------------------------------------

  /**
   What the server sent back: status line, the two headers the driver reads,
   and what the error-body extractor made of the error stream (absent when
   there was none).
   */
  datatype Reply = Reply(
    status: int,
    message: Option<string>,
    contentType: Option<string>,
    contentEncoding: Option<string>,
    errorDetail: Option<string>)

  /** How a successful response is consumed: which parser, over which content type, inflated or not. */
  datatype Decision = Decision(parser: nat, contentType: Option<string>, inflate: bool)

  /**
   `post` from reading the status on: the status policy first, then the
   gzip decision and parser dispatch for a 200.
   */
  function HandleReply(endpoint: string, registry: seq<string>, reply: Reply): (r: Result<Decision, QueryError>)
    ensures r.Ok? ==> reply.status == 200
    ensures reply.status >= 400 ==>
      && r.Err? && r.error.HttpStatusFailure? && r.error.status == reply.status
      && r.error.message == HttpFailureMessage(endpoint, reply.status, reply.message, reply.errorDetail)
    ensures reply.status < 400 && reply.status != 200 ==>
      && r.Err? && r.error.UnexpectedResponse? && r.error.status == reply.status
      && r.error.message == UnexpectedResponseMessage(endpoint, reply.status, reply.message)
    ensures reply.status == 200 && r.Err? ==>
      && r.error.UnsupportedContentType?
      && r.error.contentType == TrimHeader(reply.contentType)
      && r.error.message == UnsupportedContentTypeMessage(endpoint, TrimHeader(reply.contentType))
    ensures r.Ok? ==> r.value.parser < |registry|
                      && AcceptsType(registry[r.value.parser], TrimHeader(reply.contentType))
                      && (forall j :: 0 <= j < r.value.parser ==> !AcceptsType(registry[j], TrimHeader(reply.contentType)))
                      && r.value.contentType == TrimHeader(reply.contentType)
                      && (r.value.inflate <==> ShouldInflate(reply.contentEncoding))
    ensures reply.status == 200 ==> (r.Ok? <==> exists j :: 0 <= j < |registry| && AcceptsType(registry[j], TrimHeader(reply.contentType)))
  {
    var contentType := TrimHeader(reply.contentType);
    match StatusFailure(endpoint, reply.status, reply.message, reply.errorDetail)
    case Some(e) => Err(e)
    case None =>
      match Dispatch(endpoint, registry, contentType)
      case Err(e) => Err(e)
      case Ok(i) => Ok(Decision(i, contentType, ShouldInflate(reply.contentEncoding)))
  }
}

=== FILE: utf8.dfy ===
/**
 UTF-8, as `URLEncoder` uses it to turn the chars it must escape into bytes.
 A Dafny `char` is a Unicode scalar value, so every char has exactly one
 encoding of one to four bytes (a Java surrogate pair arrives here as the
 single scalar it stands for). The decoder is the strict inverse: it refuses
 stray continuation bytes, overlong forms, surrogates and values past U+10FFFF.
 */
module Utf8 {
  import opened Optionals

  type byte = b: int | 0 <= b < 256

  predicate IsContinuation(b: byte) {
    0x80 <= b < 0xC0
  }

  /** The bytes of one scalar value, shortest form. */
  function EncodeChar(c: char): (bs: seq<byte>)
    ensures 1 <= |bs| <= 4
    ensures |bs| == 1 <==> (c as int) < 0x80
    ensures forall i :: 1 <= i < |bs| ==> IsContinuation(bs[i])
    ensures (c as int) >= 0x80 ==> forall i :: 0 <= i < |bs| ==> bs[i] >= 0x80
  {
    var cp := c as int;
    if cp < 0x80 then [cp]
    else if cp < 0x800 then [0xC0 + cp / 64, 0x80 + cp % 64]
    else if cp < 0x1_0000 then [0xE0 + cp / 4096, 0x80 + (cp / 64) % 64, 0x80 + cp % 64]
    else [0xF0 + cp / 262144, 0x80 + (cp / 4096) % 64, 0x80 + (cp / 64) % 64, 0x80 + cp % 64]
  }

  function Encode(s: string): (bs: seq<byte>)
    ensures |bs| >= |s|
  {
    if s == [] then [] else EncodeChar(s[0]) + Encode(s[1..])
  }

  /** The length of the sequence a lead byte announces; 0 for a byte that cannot start one. */
  function SequenceLength(lead: byte): nat {
    if lead < 0x80 then 1
    else if 0xC2 <= lead < 0xE0 then 2
    else if 0xE0 <= lead < 0xF0 then 3
    else if 0xF0 <= lead < 0xF5 then 4
    else 0
  }

  predicate IsScalar(cp: int) {
    (0 <= cp < 0xD800) || (0xE000 <= cp < 0x11_0000)
  }

  /** The lead byte's payload bits followed by six bits from each continuation byte. */
  function SequenceValue(bs: seq<byte>): int
    requires 2 <= |bs| <= 4
  {
    var b0, b1 := bs[0] as int, bs[1] as int;
    if |bs| == 2 then (b0 - 0xC0) * 64 + (b1 - 0x80)
    else if |bs| == 3 then ((b0 - 0xE0) * 64 + (b1 - 0x80)) * 64 + (bs[2] as int - 0x80)
    else (((b0 - 0xF0) * 64 + (b1 - 0x80)) * 64 + (bs[2] as int - 0x80)) * 64 + (bs[3] as int - 0x80)
  }

  /** The scalar value one complete sequence stands for, if it is well-formed and shortest. */
  function DecodeSequence(bs: seq<byte>): Option<char>
    requires 1 <= |bs| <= 4 && SequenceLength(bs[0]) == |bs|
  {
    if |bs| == 1 then Some(bs[0] as char)
    else if exists i :: 1 <= i < |bs| && !IsContinuation(bs[i]) then None
    else
      var cp := SequenceValue(bs);
      var least: int := if |bs| == 2 then 0x80 else if |bs| == 3 then 0x800 else 0x1_0000;
      if least <= cp && IsScalar(cp) then Some(cp as char) else None
  }

  /** The text a byte sequence encodes, or `None` if it is not well-formed UTF-8. */
  function Decode(bs: seq<byte>): Option<string>
    decreases |bs|
  {
    if bs == [] then Some("")
    else
      var n := SequenceLength(bs[0]);
      if n == 0 || n > |bs| then None
      else
        match DecodeSequence(bs[..n])
        case None => None
        case Some(c) =>
          match Decode(bs[n..])
          case None => None
          case Some(rest) => Some([c] + rest)
  }

  lemma DivMod64(x: int)
    requires 0 <= x
    ensures (x / 64) * 64 + x % 64 == x
    ensures (x / 64) / 64 == x / 4096
    ensures (x / 4096) / 64 == x / 262144
  {
  }

  /** Each char's bytes form one sequence that decodes back to that char. */
  lemma DecodeEncodeChar(c: char)
    ensures SequenceLength(EncodeChar(c)[0]) == |EncodeChar(c)|
    ensures DecodeSequence(EncodeChar(c)) == Some(c)
  {
    var cp := c as int;
    var bs := EncodeChar(c);
    DivMod64(cp);
    DivMod64(cp / 64);
    DivMod64(cp / 4096);
    if cp < 0x80 {
    } else if cp < 0x800 {
      assert SequenceValue(bs) == cp;
    } else if cp < 0x1_0000 {
      assert (bs[0] as int - 0xE0) * 64 + (bs[1] as int - 0x80) == cp / 64;
      assert SequenceValue(bs) == cp;
    } else {
      assert (bs[0] as int - 0xF0) * 64 + (bs[1] as int - 0x80) == cp / 4096;
      assert ((bs[0] as int - 0xF0) * 64 + (bs[1] as int - 0x80)) * 64 + (bs[2] as int - 0x80) == cp / 64;
      assert SequenceValue(bs) == cp;
    }
  }

  /** Decoding recovers every string from its UTF-8 encoding. */
  lemma {:induction false} DecodeEncode(s: string)
    ensures Decode(Encode(s)) == Some(s)
    decreases |s|
  {
    if s != [] {
      var head := EncodeChar(s[0]);
      var bs := Encode(s);
      DecodeEncodeChar(s[0]);
      assert bs[..|head|] == head;
      assert bs[|head|..] == Encode(s[1..]);
      DecodeEncode(s[1..]);
      assert s == [s[0]] + s[1..];
    }
  }

  /** Two strings with the same encoding are the same string. */
  lemma EncodeInjective(s: string, t: string)
    requires Encode(s) == Encode(t)
    ensures s == t
  {
    DecodeEncode(s);
    DecodeEncode(t);
  }

  /** Text made of ASCII chars encodes to one byte per char, each equal to the char's code. */
  lemma {:induction false} EncodeAscii(s: string)
    requires forall i :: 0 <= i < |s| ==> (s[i] as int) < 0x80
    ensures |Encode(s)| == |s|
    ensures forall i :: 0 <= i < |s| ==> Encode(s)[i] == s[i] as int
    decreases |s|
  {
    if s != [] {
      EncodeAscii(s[1..]);
    }
  }
}
